=== FILE: README.md ===
# Paginated list controller of torrentino, in Dafny

This project models the reusable paginated list controller of the Telegram bot
torrentino (`common/paginator/`), the insertion-ordered map it is built on
(`common/ordmap/`), and the per-user record store (`common/user_context.go`),
and proves what they promise.

- **Ordered map** (`ordmap.dfy`, module `OrdMap`): keys in first-insertion
  order next to a map of values. Filter buttons and sort headers take their
  on-screen order from it.
- **List** (`list.dfy`, module `PagedList`): the backing `list` of items, the
  visible `index` of positions into it, the sort configuration and the filter
  state.
  - `Append` discovers filter values.
  - `Filter` rebuilds the index. `Delete` removes an item and refilters.
  - `Sort` permutes the index by the multi-key `Less`.
  - The sort toggle cycles an attribute through 0 → 1 → 2 → 0.
- **Filter state** (`filtering.dfy`, module `Filtering`): each attribute maps
  to its known values, and each value to its enabled flag. It also holds the
  inclusion rule.
- **Header-indexed sort state** (`sorting.dfy`, module `Sorting`): the same
  toggle cycle, keyed by header position (`multyOrder`).
- **Shared sort vocabulary** (`sortorder.dfy`, module `SortOrder`): the
  `int8` order field with Go's wrap-around, and the first-untied-key
  comparison. `indexsort.dfy` holds a functional insertion sort that stands
  in for `sort.Sort`.
- **View state machine** (`paginator.dfy`, module `Pagination`):
  - page bounds, the header and the message text;
  - the keyboard layout;
  - the callback command decoder;
  - the refresh diff rule;
  - the prefix → handler registry of `Show`.
- **Paginator laws** (`paginator_laws.dfy`, module `PaginatorLaws`):
  - what pressing each kind of button does;
  - which buttons the keyboard shows in each state;
  - paging keeps the first shown item inside the list.
- **User records** (`usercontext.dfy`, module `UserContext`): get-or-create.

The text and keyboard are modelled as structured values. The callback data
strings are exact; captions carry their content (number, alias and order,
value and flag) without the HTML markup and glyphs. Bot calls are returned
as values (`Effect`, `Shown`). A Go panic is either a precondition (where
the caller must prevent it) or a `Crash` outcome of the callback handler
(where the data of a press decides it).

Where the source's revisions disagree, one coherent model is built:
- The view of `paginator.go` runs over `list.go`'s `List`. `Len` is the length
  of the visible index. The sort row lists the List's configured attributes,
  and the filter rows list the List's filter values.
- `#order_by#k` uses `List.ToggleSorting` and then `Sort`. `#filterby#a/v`
  uses `List.ToggleFilter`, then `Filter` and `Sort`.
- `sorting.go`'s `SortingState` is modelled on its own, with its own `Less`.

Worth knowing about the code:
- Filter attributes combine with OR: an item is kept when any one attribute admits it.
- Discovered filter values are never removed, even when no item shows them any more.
- `Sort` calls `sort.Sort`, which is not stable.
- `Append` adds the new position to the visible index as well as the item to the list, without filtering it.

## Model

| member | source | states |
|---|---|---|
| OrdMap.New | common/ordmap/ordmap.go:10-15 | a new map is empty and satisfies the key-order invariant |
| OrdMap.Set | common/ordmap/ordmap.go:17-22 | afterwards `Get(key)` is the value and every other key reads as before; a new key is appended to the order and `Len` grows by one, while an existing key keeps the order and `Len`; the invariant is preserved |
| OrdMap.Get | common/ordmap/ordmap.go:24-27 | under the invariant, found exactly for the keys in the order, with the stored value |
| OrdMap.GetOne | common/ordmap/ordmap.go:38-40 | the stored value, or the zero value for an absent key |
| OrdMap.GetByIndex | common/ordmap/ordmap.go:29-32 | the value of the i-th inserted key |
| OrdMap.GetOneByIndex | common/ordmap/ordmap.go:42-44 | for `0 <= i < Len`, the value stored under the i-th inserted key |
| OrdMap.IterKeys | common/ordmap/ordmap.go:46-54 | the keys numbered by insertion rank |
| OrdMap.Iter | common/ordmap/ordmap.go:56-64 | every stored key exactly once, in first-insertion order, paired with its current value |
| OrdMap.LenCountsEntries | common/ordmap/ordmap.go:34-36 | under the invariant, `OrdMap.Len` (the length of the key order) equals the number of stored entries |
| PagedList.Alloc | common/paginator/list.go:35-38 | list and index emptied, configuration kept |
| PagedList.Append | common/paginator/list.go:40-51 | the item goes to the end of the list and its position to the end of the index; each filter attribute gains the item's value, disabled, only when absent; existing values keep their flags |
| PagedList.Filter | common/paginator/list.go:67-94 | the index becomes a strictly increasing sequence of valid positions holding exactly the items the filters keep |
| PagedList.FilterIdempotent | common/paginator/list.go:67-94 | filtering twice is filtering once |
| PagedList.Delete | common/paginator/list.go:53-57 | exactly the item at visible position `i` leaves the backing list, the others keep their order, and the index is rebuilt by the filter rule |
| PagedList.Item | common/paginator/list.go:59-61 | the item shown at visible position `i` is one of the stored items |
| PagedList.Swap | common/paginator/list.go:106-108 | exchanges two index entries and nothing else; the multiset of entries is unchanged |
| PagedList.LenCountsKept | common/paginator/list.go:100-103 | after filtering, `PagedList.Len` (the length of the visible index) is the number of items the filters keep |
| PagedList.Less | common/paginator/list.go:111-121 | the first queued attribute on which the items are not tied decides: ascending when its order is 2, descending otherwise; all ties give false |
| PagedList.Sort | common/paginator/list.go:96-98 | only the index is permuted; under a strict weak `Compare`, no visible item is strictly less than one shown before it |
| PagedList.SortedByQueue | common/paginator/list.go:96-121 | the index sort yields an order sorted by the queue's `Less` whenever `Compare` is a strict weak order |
| PagedList.SetupFiltering | common/paginator/list.go:127-132 | one empty value map per attribute, in the given order when the names are distinct |
| PagedList.ToggleFilter | common/paginator/list.go:134-140 | flips a known value of a known attribute, changes no other flag, and leaves everything alone otherwise |
| PagedList.SetupSorting | common/paginator/list.go:142-151 | the attributes are stored by name and the queue holds the names whose order is set, in array order; with distinct names and valid orders the sort invariant holds |
| PagedList.StoreAttributesDistinct | common/paginator/list.go:144-147 | with distinct names, the attributes are stored in array order, each under its own name |
| PagedList.ToggleSorting | common/paginator/list.go:153-167 | `Order += 1` with int8 wrap-around; reaching 1 appends to the queue, passing 2 resets to 0 and removes the attribute from the queue; an unknown attribute changes nothing |
| PagedList.ToggleSortingInv | common/paginator/list.go:153-167 | the toggle is always defined under the sort invariant, advances the order around 0 → 1 → 2 → 0, and keeps "queued iff order is not 0, at most once" |
| PagedList.Reload | common/paginator/paginator.go:173-177 | filter then sort: the visible entries are exactly the kept items, each once, sorted by the queue |
| Filtering.Setup | common/paginator/filtering.go:9-14 | one empty value map per given attribute, and nothing else |
| Filtering.SetupOrder | common/paginator/filtering.go:9-14 | with distinct attributes, the attribute order is the given order |
| Filtering.Toggle | common/paginator/filtering.go:16-22 | a known value of a known attribute has its flag negated; every other flag and every order is unchanged; anything unknown leaves the state as it was |
| Filtering.ToggleTwice | common/paginator/filtering.go:16-22 | toggling the same value twice restores the state |
| Filtering.Discover | common/paginator/list.go:45-50 | the discovery loop of `Append`: every attribute knows the item's value afterwards; new values come in disabled at the end of the order; known values are untouched |
| Filtering.KeepIsIncluded | common/paginator/list.go:74-87 | the source's OR loop keeps an item iff there are no attributes, or some attribute has the item's value enabled, or some attribute has nothing enabled |
| Sorting.Setup | common/paginator/sorting.go:22-30 | `multyOrder` holds the positions of the headers with a set order, ascending, and the invariant holds |
| Sorting.GetHeader | common/paginator/sorting.go:32-39 | the first header with that name and its position, or `(nil, -1)` when none matches |
| Sorting.ToggleKey | common/paginator/sorting.go:41-58 | for a configured key, advances that header's order 0 → 1 → 2 → 0 and no other header; queues on 0 → 1, dequeues on 2 → 0; preserves the invariant |
| Sorting.ThreeToggles | common/paginator/sorting.go:41-58 | three toggles restore the headers; from 0 the queue is restored exactly, from 1 or 2 the key moves to the end |
| Sorting.Less | common/paginator/sorting.go:76-91 | the first queued header on which the items are not tied decides, ascending when its order is 2; all ties give false |
| SortOrder.Inc | common/paginator/list.go:159 | `Order += 1` on an int8: plus one, and 127 wraps to -128 |
| SortOrder.LessByStrictOrder | common/paginator/list.go:111-121 | the queue comparison is irreflexive and transitive when every queued comparison is a strict weak order, so `sort.Sort` may use it |
| IndexSort.SortSorted | common/paginator/list.go:96-98 | the stand-in for `sort.Sort` returns a sorted permutation under a strict order |
| Decimal.LeadsWithNumber | common/paginator/paginator.go:373 | `unicode.IsNumber(rune(cmd[0]))` holds exactly when the command starts with an ASCII digit |
| Decimal.SelectionRoundTrip | common/paginator/paginator.go:373-376 | an item button's data `Itoa(i)` passes the number test and `Atoi` reads back `i` |
| Decimal.Atoi | common/paginator/paginator.go:374 | `strconv.Atoi` with its error dropped: the fast path below 19 bytes, and otherwise `ParseUint`'s digit loop clamped by `ParseInt`; the stored value lies in `0..MaxInt` |
| Decimal.ScanReadsDigitRun | common/paginator/paginator.go:374 | `ParseUint`'s digit loop reports a range error exactly when the leading digits exceed 2^64-1, otherwise a syntax error exactly when a non-digit follows them, otherwise their value |
| Decimal.AtoiReadsDigitRun | common/paginator/paginator.go:374 | the stored selection is `MaxInt` when the leading digits exceed 2^64-1, whatever follows; otherwise 0 when anything but digits follows, otherwise the value saturated at `MaxInt` |
| Decimal.NinesThenLetterSaturate | common/paginator/paginator.go:374 | twenty or more nines followed by a letter (such as "99999999999999999999x") select `MaxInt`, not 0 |
| Decimal.ItoaInjective | common/paginator/paginator.go:236 | distinct item positions give distinct callback data |
| Pagination.New | common/paginator/paginator.go:68-74 | nothing selected, first page, controls hidden, nothing sent yet |
| Pagination.PageBounds | common/paginator/paginator.go:129-137 | `from = activePage * ipp`, and `to` is the smaller of `from + ipp` and `Len` |
| Pagination.Header | common/paginator/paginator.go:140-147 | "results: from+1 - to of Len" iff `from < to`, otherwise "the list is empty" |
| Pagination.BuildText | common/paginator/paginator.go:180-206 | the header, one numbered line per position of the page carrying the caller's rendering of the item shown there (underlined iff selected), and the footer over the visible items only when it is not empty |
| Pagination.TextFollowsItems | common/paginator/paginator.go:185-206 | when a position of the page comes to show an item the caller renders differently, the text changes and a refresh edits it |
| Pagination.HeaderCountsLines | common/paginator/paginator.go:180-199 | the header's range numbers exactly the lines shown, never more than a page |
| Pagination.SelectedLineUnderlined | common/paginator/paginator.go:188-195 | exactly the selected item's line is underlined, and only when it is on the page |
| Pagination.ItemRow | common/paginator/paginator.go:229-240 | one button per position of the page, numbered from 1, with data `prefix + Itoa(i)` |
| Pagination.SortRow | common/paginator/paginator.go:242-252 | one button per configured sort attribute in configuration order, with data `prefix + "#order_by#" + name` |
| Pagination.FilterRows | common/paginator/paginator.go:254-269 | rows of one to four buttons that, laid end to end, are the filter buttons of all attributes in order; every row holds the buttons of a single attribute |
| Pagination.FilterButtons | common/paginator/paginator.go:254-269 | every known value of every attribute has its button, with its flag and data `prefix + "#filterby#" + attribute + "/" + value` |
| Pagination.NavRow | common/paginator/paginator.go:272-280 | three buttons: prev iff `activePage > 0`, the controls toggle, next iff `activePage < (Len-1)/ipp`; inactive ones are stubs |
| Pagination.ActionRows | common/paginator/paginator.go:282-297 | rows of at most two buttons, shown only with the controls hidden and the selection on the page, listing the actions of the item shown at the selected position |
| Pagination.BuildKeyboard | common/paginator/paginator.go:208-299 | the navigation row is always present, no row is empty, and a non-empty page puts its item row first |
| Pagination.Refresh | common/paginator/paginator.go:325-362 | a text edit iff the text changed, a markup-only edit iff only the keyboard changed, no call otherwise; the snapshot becomes the freshly built one |
| Pagination.RefreshSettles | common/paginator/paginator.go:325-362 | a second refresh with nothing changed makes no call |
| Pagination.Register | common/paginator/paginator.go:303-306 | the prefix's previous handler, if any, is unregistered and the new one recorded; other prefixes are untouched |
| Pagination.RegisterTwice | common/paginator/paginator.go:303-306 | registering twice unregisters the first handler: one handler per prefix |
| Pagination.Show | common/paginator/paginator.go:301-323 | registers the handler, and takes and sends the freshly built text and keyboard |
| Pagination.ShowThenRefresh | common/paginator/paginator.go:301-362 | right after `Show`, a refresh makes no call |
| Pagination.TrimPrefix | common/paginator/paginator.go:366 | strips the prefix when present and nothing otherwise |
| Pagination.TrimPrefixOfData | common/paginator/paginator.go:366 | a button's data with the prefix stripped is its command again |
| Pagination.SplitFilter | common/paginator/paginator.go:401-402 | the text before the first slash and the text up to the next slash; undefined (a panic) without a slash |
| Pagination.SplitFilterRoundTrip | common/paginator/paginator.go:400-402 | the payload of a filter button (`attribute + "/" + value`) splits back into its attribute and value when neither contains a slash |
| Pagination.SplitFilterCutsValue | common/paginator/paginator.go:400-402 | a value containing a slash is cut at it |
| Pagination.SelectStep | common/paginator/paginator.go:373-376 | a digit-led command selects the position `Atoi` reads (saturated on overflow, 0 on a syntax error) and hides the controls; any other command changes nothing |
| Pagination.NavigateStep | common/paginator/paginator.go:378-391 | `next_page` increments only when `activePage < Len/ipp`, `prev_page` decrements only when `activePage > 0`, `toggle_filters` flips the controls |
| Pagination.OrderBy | common/paginator/paginator.go:396-399 | toggles the attribute's sort order, keeps the same entries, sorted by the new queue when `Compare` is a strict weak order, and clears the selection |
| Pagination.FilterBy | common/paginator/paginator.go:400-406 | toggles the value, returns to page 0, clears the selection, and shows exactly the items the new filters keep, each once, sorted by the queue when `Compare` is a strict weak order; a panic without a slash |
| Pagination.RunAction | common/paginator/paginator.go:407-412 | runs only with an item selected, and clears the selection iff `Execute` says so |
| Pagination.TaggedStep | common/paginator/paginator.go:393-414 | commands longer than ten characters dispatch on their ten-character tag; anything else passes through |
| Pagination.Dispatch | common/paginator/paginator.go:364-414 | in the list-backed handler, a press panics exactly on an empty command or a filter payload without a slash; otherwise the view stays valid with the same prefix and page size |
| Pagination.HandleCallback | common/paginator/paginator.go:364-416 | the dispatched view with a refreshed text and keyboard, and no call exactly when both are unchanged |
| PaginatorLaws.KeyboardRouted | common/paginator/paginator.go:208-299 | every button's data starts with the paginator's prefix |
| PaginatorLaws.ControlsHidden | common/paginator/paginator.go:242-269 | with the controls hidden there is no sort or filter button |
| PaginatorLaws.ControlsShown | common/paginator/paginator.go:242-282 | with the controls shown, the sort row and every filter button are present and no action is offered |
| PaginatorLaws.ActionsOnlyForSelection | common/paginator/paginator.go:282 | no action button unless the controls are hidden and the selection is on the page |
| PaginatorLaws.ActionsOfSelection | common/paginator/paginator.go:282-297 | when actions are shown, every action of the selected item has its button |
| PaginatorLaws.PressItem | common/paginator/paginator.go:373-376 | pressing the button of item `i` (data `Itoa(i)`) selects `i` and hides the controls |
| PaginatorLaws.PressNext | common/paginator/paginator.go:379-382 | pressing an active next arrow moves one page on, to a page that is not empty |
| PaginatorLaws.PressPrev | common/paginator/paginator.go:384-387 | pressing an active prev arrow moves one page back |
| PaginatorLaws.PressToggle | common/paginator/paginator.go:389-390 | pressing the middle button flips the controls |
| PaginatorLaws.PressStub | common/paginator/paginator.go:272-280 | pressing an inactive arrow (a stub button) changes nothing and makes no call |
| PaginatorLaws.PressSort | common/paginator/paginator.go:396-399 | pressing a sort button runs `OrderBy` for its attribute |
| PaginatorLaws.PressSortEditsText | common/paginator/paginator.go:393-415 | a sort press that moves an item the caller renders differently onto a shown position edits the message text |
| PaginatorLaws.PressSortUnnamed | common/paginator/paginator.go:393-395 | a sort button for an empty attribute name is ignored |
| PaginatorLaws.PressFilter | common/paginator/paginator.go:400-406 | pressing a filter button toggles exactly that value, returns to page 0 and shows exactly the kept items |
| PaginatorLaws.PressAction | common/paginator/paginator.go:407-412 | pressing an action button runs `RunAction` for it |
| PaginatorLaws.NextPagePastFullPage | common/paginator/paginator.go:379-382 | when the last page is exactly full, the next arrow (guard `activePage < (Len-1)/ipp`) is a stub, yet a `next_page` command still moves to an empty page |
| PaginatorLaws.CallbacksKeepPageInRange | common/paginator/paginator.go:378-414 | for an `Execute` that leaves the list unchanged, every callback keeps `activePage * ipp <= Len` |
| UserContext.Get | common/user_context.go:10-18 | a present id returns its record and leaves the store unchanged; an absent id gets a fresh record with an empty route; no other entry changes |
| UserContext.GetIdempotent | common/user_context.go:10-18 | a second `Get` returns the same record and changes nothing |
| UserContext.GetIsolated | common/user_context.go:10-18 | looking up one user never disturbs another's record |

## Left out

- Telegram I/O (sending, editing and answering messages, sending documents, registering handlers): these are foreign library calls. `Refresh` and `Show` return the call they would make as a value. The answer to a callback query is not modelled.
- `Show` takes the handler id that registration returns as a parameter. Context, bot and chat id are dropped.
- Concurrency, and the callers' tickers and goroutines.
- `utils.LogError` and the `fmt.Println` of `ToggleKey` have no effect in the model.
- Pagination.Refresh: compares structured text rather than the rendered HTML string. HTML markup, emoji and the `sortChars` glyphs are not modelled; captions carry their content as fields.
- PagedList.Sort: an insertion sort stands in for Go's `sort.Sort`, whose algorithm is not modelled. Only permutation, and sortedness under a strict weak `Compare`, are claimed. No stability, which Go does not promise either.
- Pagination.Dispatch: `paginator.go:397` calls `Sorting.ToggleKey`, which dereferences the nil header that `GetHeader` returns for an unconfigured key, so the source also panics on `#order_by#` with an unknown attribute. The model routes `#order_by#` through the List's `ToggleSorting` instead. For an unknown attribute it leaves the sort state unchanged, re-sorts and clears the selection, rather than crashing.
- Sorting.Setup: `sorting.go:23` keeps the caller's header slice, so `ToggleKey` writes each `Order` through to the caller's array. The model holds the headers by value and does not model that aliasing. The callers in the repository pass a fresh literal, so nothing they can observe changes.
- Pagination.RunAction: `Execute` is a parameter that returns only its "clear the selection" answer. Callers whose `Execute` deletes items from the list are not modelled.
- PaginatorLaws.CallbacksKeepPageInRange: holds only for an `Execute` that does not shrink the list. An `Execute` that deletes the last item of the last page leaves the page past the end.
- Decimal.Atoi: models `strconv.Atoi` only on strings that start with a digit, the only ones the select command passes it. Sign handling is not modelled.
- The caller callbacks are parameters. These are the `Stringer` and `Executor` dispatch, `Stringify`, `Compare`, `ItemString`, `Footer`, `Actions` and `Execute`, and the source's defaults for them. Their side effects are not modelled.
- `ItemString` and `Actions` receive the item at the visible position, and `Footer` the visible items in display order, as the handlers read them through `Item(i)` (`handlers/downloads/downloads.go:121-125`, `:161-162`). Anything else a footer reads, such as the disk usage `downloads.go` obtains from `syscall.Statfs`, is fixed in the callback for the duration of one build. `Execute` keeps the raw selected position, which the source never range-checks.
- The `Evaluator` callbacks receive the item rather than its position.
  - `list.go` passes backing positions to `Stringify` and visible positions to `Compare`.
  - In `Filter` the index is the identity while `Stringify` runs, so the two readings agree there.
  - In `Append`, a callback that resolved the position through the visible index would read a different item once filtering has shrunk the index. That reading is not modelled.
- The zero-value `List`, whose maps are nil so that `Append` would panic: the model starts from empty ordered maps.
- `paginator.go`'s own `Alloc`, `Append`, `Delete` and `Item` (lines 76-103) are an older revision of `list.go`'s. The model uses the `list.go` versions.
- `sorting.go`'s `Paginator.Sort`, `Len` and `Swap` (lines 61-73) are the same as `list.go`'s and are modelled by `PagedList.Sort`, `PagedList.Len` and `PagedList.Swap`.
- `Pagination.Valid` requires a positive page size, because the keyboard divides by it. The source does not check this, and Go panics on zero. A negative page size is not modelled.
- `Sorting.ToggleKey` requires a configured key, and for an ascending header, a queued one. Otherwise Go dereferences nil or hands `slices.Delete` the index -1.
- `PagedList.ToggleSorting` requires its attribute to be queued when it passes ascending, for the same `slices.Delete` reason. The sort invariant guarantees this, as `PagedList.ToggleSortingInv` shows.
- UserContext.Get: returns the record as a value, where Go returns a shared reference into the map. Later writes through that reference are not modelled.

=== FILE: decimal.dfy ===
/** Decimal text as the callback protocol uses it: `strconv.Itoa` for the item
    buttons' data, `strconv.Atoi` and `unicode.IsNumber(rune(cmd[0]))` for
    the numeric select command (common/paginator/paginator.go:236,373-376). */
module Decimal {

  /** Go's `math.MaxInt` on a 64-bit platform. */
  const MaxInt: int := 0x7fff_ffff_ffff_ffff

  predicate IsDigit(c: char) {
    '0' <= c <= '9'
  }

  predicate AllDigits(s: string) {
    forall i :: 0 <= i < |s| ==> IsDigit(s[i])
  }

  /** The first byte of the UTF-8 encoding of `c`: what Go's `cmd[0]` reads
      from a string whose first character is `c`. */
  function FirstByte(c: char): (b: int)
    ensures 0 <= b < 0x100
    ensures c as int < 0x80 ==> b == c as int
    ensures c as int >= 0x80 ==> b >= 0xC2
  {
    var v := c as int;
    if v < 0x80 then v
    else if v < 0x800 then 0xC0 + v / 0x40
    else if v < 0x1_0000 then 0xE0 + v / 0x1000
    else 0xF0 + v / 0x4_0000
  }

  /** `unicode.IsNumber(rune(b))` for one byte `b`: the ASCII digits and the
      Latin-1 numerics (superscripts one to three, the three vulgar fractions),
      since Go widens the byte to the code point of the same value. */
  predicate IsNumberByte(b: int) {
    0x30 <= b <= 0x39 || b in {0xB2, 0xB3, 0xB9, 0xBC, 0xBD, 0xBE}
  }

  /** The test `unicode.IsNumber(rune(cmd[0]))` on a non-empty command. The
      Latin-1 numerics never occur as a leading byte of UTF-8, so only an
      ASCII digit passes. */
  function LeadsWithNumber(cmd: string): (r: bool)
    requires |cmd| > 0
    ensures r <==> IsDigit(cmd[0])
  {
    IsNumberByte(FirstByte(cmd[0]))
  }

  function DigitChar(d: nat): (c: char)
    requires d < 10
    ensures IsDigit(c)
  {
    ['0', '1', '2', '3', '4', '5', '6', '7', '8', '9'][d]
  }

  function DigitValue(c: char): (d: nat)
    requires IsDigit(c)
    ensures d < 10
  {
    (c as int - '0' as int) as nat
  }

  /** `strconv.Itoa` on a non-negative value: no sign, no leading zero. */
  function Itoa(n: nat): (s: string)
    ensures 0 < |s| && AllDigits(s)
    ensures |s| > 1 ==> s[0] != '0'
    decreases n
  {
    if n < 10 then [DigitChar(n)] else Itoa(n / 10) + [DigitChar(n % 10)]
  }

  /** The number a digit string denotes. */
  function Value(s: string): nat
    requires AllDigits(s)
  {
    if |s| == 0 then 0 else Value(s[..|s| - 1]) * 10 + DigitValue(s[|s| - 1])
  }

  /** Go's `math.MaxUint64`, the bound of `strconv.ParseUint(s, 10, 64)`. */
  const MaxUint64: int := 0xffff_ffff_ffff_ffff

  /** What `strconv.ParseUint` reports: a value, a syntax error or a range error. */
  datatype Parsed = Parsed(n: nat) | SyntaxError | RangeError

  /** The digit loop of `strconv.ParseUint(s, 10, 64)` from position `i`,
      with `n` read so far. A non-digit is a syntax error. A digit that would
      carry the value past 64 bits is a range error, reported at that digit
      before anything after it is read: first the `n >= cutoff` test, then
      the `n1 > maxVal` test. */
  function ScanUint(s: string, i: nat, n: nat): (r: Parsed)
    requires i <= |s| && n <= MaxUint64
    ensures r.Parsed? ==> r.n <= MaxUint64
    decreases |s| - i
  {
    if i == |s| then Parsed(n)
    else if !IsDigit(s[i]) then SyntaxError
    else if n >= MaxUint64 / 10 + 1 then RangeError
    else
      var n1 := n * 10 + DigitValue(s[i]);
      if n1 > MaxUint64 then RangeError else ScanUint(s, i + 1, n1)
  }

  /** `strconv.Atoi` on a 64-bit platform, for a string that starts with a
      digit (the only strings the select command hands it), with the error
      dropped as `p.selectedItem, _ = strconv.Atoi(cmd)` drops it. Fewer than
      19 bytes take the fast path: all digits give their value, anything else
      0. Longer strings go through `ParseInt`: a syntax error gives 0, a
      range error or a value of 2^63 or more gives `MaxInt`. */
  function Atoi(s: string): (n: int)
    requires |s| > 0 && IsDigit(s[0])
    ensures 0 <= n <= MaxInt
  {
    if |s| < 19 then
      if AllDigits(s) then ShortValue(s); Value(s) else 0
    else
      match ScanUint(s, 0, 0)
      case SyntaxError => 0
      case RangeError => MaxInt
      case Parsed(u) => if u > MaxInt then MaxInt else u
  }

  /** The longest run of digits at the start of `s`. */
  function DigitRun(s: string): (r: string)
    ensures r <= s && AllDigits(r)
    ensures |r| < |s| ==> !IsDigit(s[|r|])
  {
    if |s| == 0 || !IsDigit(s[0]) then []
    else
      var r := [s[0]] + DigitRun(s[1..]);
      assert |r| < |s| ==> s[|r|] == s[1..][|r| - 1];
      r
  }

  /** What `Atoi` stores, read off the leading digits: a run whose value does
      not fit 64 bits saturates at `MaxInt` whatever follows it; otherwise a
      string of digits only gives its value, saturated at `MaxInt`, and
      anything else gives 0. */
  lemma AtoiReadsDigitRun(s: string)
    requires |s| > 0 && IsDigit(s[0])
    ensures var run := DigitRun(s);
      Atoi(s) ==
        if Value(run) > MaxUint64 then MaxInt
        else if |run| < |s| then 0
        else if Value(run) > MaxInt then MaxInt
        else Value(run)
  {
    if |s| < 19 {
      ShortAtoi(s);
    } else {
      assert s[..0] == [];
      ScanReadsDigitRun(s, 0, 0);
    }
  }

  /** The fast path: a short run never overflows, so only "digits only" matters. */
  lemma ShortAtoi(s: string)
    requires 0 < |s| < 19 && IsDigit(s[0])
    ensures Value(DigitRun(s)) < MaxInt
    ensures |DigitRun(s)| < |s| <==> !AllDigits(s)
    ensures Atoi(s) == if AllDigits(s) then Value(DigitRun(s)) else 0
  {
    ShortValue(DigitRun(s));
    if AllDigits(s) {
      assert s[..|s|] == s;
      RunEnds(s, |s|);
    }
  }

  /** Twenty or more nines overflow 64 bits before whatever follows them is
      read, so `Atoi` saturates even when a letter comes next: the command
      "99999999999999999999x" selects `MaxInt`, not 0. */
  lemma NinesThenLetterSaturate(s: string, k: nat)
    requires 20 <= k < |s| && !IsDigit(s[k]) && forall i :: 0 <= i < k ==> s[i] == '9'
    ensures Atoi(s) == MaxInt
  {
    AtoiReadsDigitRun(s);
    NinesRun(s, k);
    Pow10Mono(20, k);
    assert Pow10(5) == 100_000;
    assert Pow10(10) == 100_000 * Pow10(5);
    assert Pow10(20) == 10_000_000_000 * Pow10(10);
  }

  /** A string that starts with `k` nines and then has a non-digit has those
      nines as its digit run, denoting 10^k - 1. */
  lemma NinesRun(s: string, k: nat)
    requires k < |s| && !IsDigit(s[k]) && forall i :: 0 <= i < k ==> s[i] == '9'
    ensures Value(DigitRun(s)) == Pow10(k) - 1
  {
    NinesValue(s[..k]);
    RunEnds(s, k);
  }

  /** A string of nines denotes 10^k - 1. */
  lemma {:induction false} NinesValue(s: string)
    requires forall i :: 0 <= i < |s| ==> s[i] == '9'
    ensures AllDigits(s) && Value(s) == Pow10(|s|) - 1
    decreases |s|
  {
    if |s| > 0 {
      NinesValue(s[..|s| - 1]);
    }
  }

  /** Fewer than 19 digits denote at most 10^18 - 1, well inside `MaxInt`. */
  lemma ShortValue(s: string)
    requires AllDigits(s) && |s| < 19
    ensures Value(s) < 1_000_000_000_000_000_000
  {
    ValueBelowPow10(s);
    Pow10Mono(|s|, 18);
    assert Pow10(6) == 1_000_000;
    assert Pow10(12) == 1_000_000 * Pow10(6);
  }

  /** The loop of `ScanUint`, read off the digit run: started after the
      first `i` digits with their value, it fails on overflow of the run,
      then on a character after the run, and returns the run's value otherwise. */
  lemma {:induction false} ScanReadsDigitRun(s: string, i: nat, n: nat)
    requires i <= |s| && AllDigits(s[..i]) && n == Value(s[..i]) && n <= MaxUint64
    ensures var run := DigitRun(s);
      ScanUint(s, i, n) ==
        if Value(run) > MaxUint64 then RangeError
        else if |run| < |s| then SyntaxError
        else Parsed(Value(run))
    decreases |s| - i
  {
    if i == |s| || !IsDigit(s[i]) {
      RunEnds(s, i);
    } else {
      var n1 := n * 10 + DigitValue(s[i]);
      ValueStep(s, i);
      if n1 > MaxUint64 {
        RunCovers(s, i + 1);
        ValuePrefix(DigitRun(s), i + 1);
      } else {
        ScanReadsDigitRun(s, i + 1, n1);
      }
    }
  }

  /** Leading digits lie inside the digit run. */
  lemma RunCovers(s: string, i: nat)
    requires i <= |s| && AllDigits(s[..i])
    ensures i <= |DigitRun(s)| && DigitRun(s)[..i] == s[..i]
  {
  }

  /** Leading digits followed by the end or a non-digit are the whole run. */
  lemma RunEnds(s: string, i: nat)
    requires i <= |s| && AllDigits(s[..i])
    requires i == |s| || !IsDigit(s[i])
    ensures DigitRun(s) == s[..i]
  {
    RunCovers(s, i);
  }

  /** One more digit multiplies by ten and adds it. */
  lemma ValueStep(s: string, i: nat)
    requires i < |s| && AllDigits(s[..i]) && IsDigit(s[i])
    ensures AllDigits(s[..i + 1])
    ensures Value(s[..i + 1]) == Value(s[..i]) * 10 + DigitValue(s[i])
  {
    assert s[..i + 1][..i] == s[..i];
    assert s[..i + 1][i] == s[i];
  }

  /** A longer run of digits never denotes less. */
  lemma {:induction false} ValuePrefix(s: string, k: nat)
    requires AllDigits(s) && k <= |s|
    ensures Value(s[..k]) <= Value(s)
    decreases |s|
  {
    if k < |s| {
      var init := s[..|s| - 1];
      assert init[..k] == s[..k];
      ValuePrefix(init, k);
    } else {
      assert s[..k] == s;
    }
  }

  function Pow10(k: nat): (p: nat)
    ensures p > 0
  {
    if k == 0 then 1 else 10 * Pow10(k - 1)
  }

  lemma {:induction false} Pow10Mono(j: nat, k: nat)
    requires j <= k
    ensures Pow10(j) <= Pow10(k)
    decreases k
  {
    if j < k {
      Pow10Mono(j, k - 1);
    }
  }

  /** `k` digits denote less than 10^k. */
  lemma {:induction false} ValueBelowPow10(s: string)
    requires AllDigits(s)
    ensures Value(s) < Pow10(|s|)
    decreases |s|
  {
    if |s| > 0 {
      ValueBelowPow10(s[..|s| - 1]);
    }
  }

  lemma DigitRoundTrip(d: nat)
    requires d < 10
    ensures DigitValue(DigitChar(d)) == d
  {
  }

  /** Reading back what `Itoa` wrote gives the number. */
  lemma {:induction false} ValueOfItoa(n: nat)
    ensures Value(Itoa(n)) == n
    decreases n
  {
    DigitRoundTrip(n % 10);
    if n >= 10 {
      var s := Itoa(n);
      assert s[..|s| - 1] == Itoa(n / 10);
      ValueOfItoa(n / 10);
    }
  }

  /** The numeric select command round-trips: an item button's data, once the
      prefix is stripped, is read back as the same position. */
  lemma SelectionRoundTrip(n: nat)
    requires n <= MaxInt
    ensures LeadsWithNumber(Itoa(n))
    ensures Atoi(Itoa(n)) == n
  {
    ValueOfItoa(n);
    AtoiReadsDigitRun(Itoa(n));
    assert DigitRun(Itoa(n)) == Itoa(n);
  }

  /** `Itoa` is injective: distinct positions give distinct callback data. */
  lemma ItoaInjective(m: nat, n: nat)
    requires Itoa(m) == Itoa(n)
    ensures m == n
  {
    ValueOfItoa(m);
    ValueOfItoa(n);
  }
}

=== FILE: filtering.dfy ===
/** Filter state (common/paginator/filtering.go, and the same code as
    `SetupFiltering` / `ToggleFilter` at common/paginator/list.go:127-140):
    an ordered map from attribute name to an ordered map from each value seen
    for that attribute to its "enabled" flag. */
module Filtering {
  import opened Optional
  import opened Seqs
  import OrdMap

  type Values = OrdMap.OrderedMap<string, bool>
  type Filters = OrdMap.OrderedMap<string, Values>

  /** Both levels of ordered map keep their invariant. */
  ghost predicate Valid(f: Filters) {
    && OrdMap.Valid(f)
    && forall a :: a in f.store ==> OrdMap.Valid(f.store[a])
  }

  /** `Setup`: one empty value map per attribute, in the given order. A
      repeated attribute keeps its first place and gets a fresh empty map. */
  function Setup(attributes: seq<string>): (f: Filters)
    ensures Valid(f)
    ensures forall a :: a in f.store <==> a in attributes
    ensures forall a :: a in f.store ==> f.store[a] == OrdMap.New()
    ensures |f.keys| <= |attributes|
    decreases |attributes|
  {
    if |attributes| == 0 then OrdMap.New()
    else
      var init := attributes[..|attributes| - 1];
      var last := attributes[|attributes| - 1];
      var f := Setup(init);
      var r := OrdMap.Set(f, last, OrdMap.New());
      SetupStep(attributes, f, r);
      r
  }

  /** One step of `Setup`: adding the last attribute keeps every fact about
      the attributes before it. */
  lemma SetupStep(attributes: seq<string>, f: Filters, r: Filters)
    requires |attributes| > 0
    requires Valid(f) && r == OrdMap.Set(f, attributes[|attributes| - 1], OrdMap.New())
    requires forall a :: a in f.store <==> a in attributes[..|attributes| - 1]
    requires forall a :: a in f.store ==> f.store[a] == OrdMap.New()
    requires |f.keys| <= |attributes| - 1
    ensures Valid(r)
    ensures forall a :: a in r.store <==> a in attributes
    ensures forall a :: a in r.store ==> r.store[a] == OrdMap.New()
    ensures |r.keys| <= |attributes|
  {
    var init, last := attributes[..|attributes| - 1], attributes[|attributes| - 1];
    assert attributes == init + [last];
    assert forall a :: a in r.store ==> a == last || r.store[a] == f.store[a];
    assert forall a :: a in init + [last] <==> a in init || a == last;
  }

  /** Without repeated attributes, the attributes keep the given order. */
  lemma {:induction false} SetupOrder(attributes: seq<string>)
    requires NoDuplicates(attributes)
    ensures Setup(attributes).keys == attributes
    decreases |attributes|
  {
    if |attributes| > 0 {
      var init := attributes[..|attributes| - 1];
      var last := attributes[|attributes| - 1];
      assert NoDuplicates(init);
      SetupOrder(init);
      assert last !in init by {
        forall i | 0 <= i < |init| ensures init[i] != last {
          assert attributes[i] == init[i];
        }
      }
      SetupUnfold(attributes);
      SetupOrderStep(init, last, Setup(init), Setup(attributes));
    }
  }

  lemma SetupUnfold(attributes: seq<string>)
    requires |attributes| > 0
    ensures Setup(attributes) == OrdMap.Set(Setup(attributes[..|attributes| - 1]), attributes[|attributes| - 1], OrdMap.New())
  {
  }

  /** One step of `SetupOrder`: a new attribute goes to the end of the order. */
  lemma SetupOrderStep(init: seq<string>, last: string, f: Filters, r: Filters)
    requires r == OrdMap.Set(f, last, OrdMap.New())
    requires f.keys == init && last !in init
    requires forall a :: a in f.store <==> a in init
    ensures r.keys == init + [last]
  {
  }

  /** `ToggleAttribute`: flips the flag of a known value of a known attribute;
      anything unknown leaves the state as it was. */
  function Toggle(f: Filters, attribute: string, value: string): (r: Filters)
    requires Valid(f)
    ensures Valid(r)
    ensures !Enabled(f, attribute, value).Some? ==> r == f
    ensures Enabled(f, attribute, value).Some? ==>
      Enabled(r, attribute, value) == Some(!Enabled(f, attribute, value).value)
    ensures forall a, v :: (a, v) != (attribute, value) ==> Enabled(r, a, v) == Enabled(f, a, v)
    ensures r.keys == f.keys
    ensures forall a :: a in f.store ==> a in r.store && r.store[a].keys == f.store[a].keys
  {
    match OrdMap.Get(f, attribute)
    case None => f
    case Some(buttons) =>
      match OrdMap.Get(buttons, value)
      case None => f
      case Some(enabled) => OrdMap.Set(f, attribute, OrdMap.Set(buttons, value, !enabled))
  }

  /** The flag of `value` under `attribute`, if both are known. */
  function Enabled(f: Filters, attribute: string, value: string): Option<bool> {
    match OrdMap.Get(f, attribute)
    case None => None
    case Some(buttons) => OrdMap.Get(buttons, value)
  }

  /** Toggling the same value twice restores the state. */
  lemma ToggleTwice(f: Filters, attribute: string, value: string)
    requires Valid(f)
    ensures Toggle(Toggle(f, attribute, value), attribute, value) == f
  {
    var r := Toggle(f, attribute, value);
    if Enabled(f, attribute, value).Some? {
      var buttons := f.store[attribute];
      var buttons' := r.store[attribute];
      assert buttons'.keys == buttons.keys;
      assert OrdMap.Set(buttons', value, !buttons'.store[value]) == buttons;
      assert f.store[attribute := buttons] == f.store;
    }
  }

  /** Records the value an item shows for one attribute, disabled, unless it
      is already known. */
  function Observe(buttons: Values, value: string): (r: Values)
    requires OrdMap.Valid(buttons)
    ensures OrdMap.Valid(r)
    ensures value in buttons.store ==> r == buttons
    ensures value !in buttons.store ==> r.keys == buttons.keys + [value] && r.store == buttons.store[value := false]
  {
    if OrdMap.Get(buttons, value).Some? then buttons else OrdMap.Set(buttons, value, false)
  }

  /** The discovery step of `Append`: for every attribute, the new item's
      value (given by `valueOf`) becomes a known, disabled value if it was not
      known; known values keep their flags and their order. */
  function Discover(f: Filters, valueOf: string -> string): (r: Filters)
    requires Valid(f)
    ensures Valid(r)
    ensures r.keys == f.keys && r.store.Keys == f.store.Keys
    ensures forall a, v :: a in f.store && v in f.store[a].store ==> Enabled(r, a, v) == Enabled(f, a, v)
    ensures forall a :: a in f.store ==> Enabled(r, a, valueOf(a)).Some?
    ensures forall a :: a in f.store && valueOf(a) !in f.store[a].store ==>
      Enabled(r, a, valueOf(a)) == Some(false) && r.store[a].keys == f.store[a].keys + [valueOf(a)]
    ensures forall a :: a in f.store && valueOf(a) in f.store[a].store ==> r.store[a] == f.store[a]
    ensures forall a, v :: Enabled(r, a, v).Some? && Enabled(f, a, v).None? ==> a in f.store && v == valueOf(a)
  {
    OrdMap.OrderedMap(f.keys, map a | a in f.store :: Observe(f.store[a], valueOf(a)))
  }

  /** No value of the attribute is enabled (the inner loop at list.go:80-85). */
  predicate NoneEnabled(buttons: Values)
    requires OrdMap.Valid(buttons)
  {
    forall i :: 0 <= i < |buttons.keys| ==> !buttons.store[buttons.keys[i]]
  }

  /** One attribute lets the item through: its value is enabled, or the
      attribute has nothing enabled. An unknown value reads as disabled, the
      zero value `GetUnsafe` returns. */
  predicate Admits(buttons: Values, value: string)
    requires OrdMap.Valid(buttons)
  {
    OrdMap.GetOne(buttons, value, false) || NoneEnabled(buttons)
  }

  /** The keep decision of `Filter` (list.go:73-87) as the source computes it:
      `keep` starts as "there are no attributes" and is or-ed with each
      attribute's test in key order; `n` is the number of attributes done. */
  function KeepLoop(f: Filters, valueOf: string -> string, n: nat): bool
    requires Valid(f) && n <= |f.keys|
  {
    if n == 0 then OrdMap.Len(f) == 0
    else KeepLoop(f, valueOf, n - 1) || Admits(f.store[f.keys[n - 1]], valueOf(f.keys[n - 1]))
  }

  function Keep(f: Filters, valueOf: string -> string): bool
    requires Valid(f)
  {
    KeepLoop(f, valueOf, |f.keys|)
  }

  /** The inclusion rule stated on its own: an item is kept when there are no
      filter attributes, or SOME attribute has the item's value enabled, or
      SOME attribute has no value enabled. Attributes combine with OR. */
  ghost predicate Included(f: Filters, valueOf: string -> string)
    requires Valid(f)
  {
    || |f.store| == 0
    || (exists a :: a in f.store && OrdMap.Get(f.store[a], valueOf(a)) == Some(true))
    || (exists a :: a in f.store && forall v :: v in f.store[a].store ==> !f.store[a].store[v])
  }

  /** The source's loop decides exactly the inclusion rule. */
  lemma {:induction false} KeepIsIncluded(f: Filters, valueOf: string -> string)
    requires Valid(f)
    ensures Keep(f, valueOf) <==> Included(f, valueOf)
  {
    OrdMap.LenCountsEntries(f);
    KeepLoopSome(f, valueOf, |f.keys|);
    if Keep(f, valueOf) && |f.keys| > 0 {
      var i :| 0 <= i < |f.keys| && Admits(f.store[f.keys[i]], valueOf(f.keys[i]));
      AdmittedIncluded(f, valueOf, f.keys[i]);
    }
    if Included(f, valueOf) && |f.store| > 0 {
      IncludedAdmitted(f, valueOf);
    }
  }

  /** An attribute that admits the item makes it included. */
  lemma AdmittedIncluded(f: Filters, valueOf: string -> string, a: string)
    requires Valid(f) && a in f.store && Admits(f.store[a], valueOf(a))
    ensures Included(f, valueOf)
  {
    AdmitsMeans(f.store[a], valueOf(a));
  }

  /** An included item is admitted by one of the attributes, in key order. */
  lemma IncludedAdmitted(f: Filters, valueOf: string -> string)
    requires Valid(f) && Included(f, valueOf) && |f.store| > 0
    ensures exists i :: 0 <= i < |f.keys| && Admits(f.store[f.keys[i]], valueOf(f.keys[i]))
  {
    var a :| a in f.store && (OrdMap.Get(f.store[a], valueOf(a)) == Some(true) ||
      forall v :: v in f.store[a].store ==> !f.store[a].store[v]);
    AdmitsMeans(f.store[a], valueOf(a));
    var i :| 0 <= i < |f.keys| && f.keys[i] == a;
    assert Admits(f.store[f.keys[i]], valueOf(f.keys[i]));
  }

  /** One attribute admits a value iff the value is enabled or no value is. */
  lemma AdmitsMeans(buttons: Values, value: string)
    requires OrdMap.Valid(buttons)
    ensures Admits(buttons, value) <==>
      OrdMap.Get(buttons, value) == Some(true) || forall v :: v in buttons.store ==> !buttons.store[v]
  {
    if NoneEnabled(buttons) {
      forall v | v in buttons.store ensures !buttons.store[v] {
        var j :| 0 <= j < |buttons.keys| && buttons.keys[j] == v;
      }
    }
  }

  /** After `n` attributes, `keep` holds iff there are none at all or one of
      the first `n` admits the item. */
  lemma {:induction false} KeepLoopSome(f: Filters, valueOf: string -> string, n: nat)
    requires Valid(f) && n <= |f.keys|
    ensures KeepLoop(f, valueOf, n) <==>
      OrdMap.Len(f) == 0 || exists i :: 0 <= i < n && Admits(f.store[f.keys[i]], valueOf(f.keys[i]))
  {
    if n > 0 {
      KeepLoopSome(f, valueOf, n - 1);
    }
  }
}

=== FILE: indexsort.dfy ===
/** Sorting the visible index. The source hands its `sort.Interface` to Go's
    `sort.Sort`, an unstable algorithm; this model sorts by insertion and
    promises only what `sort.Sort` promises: the result is a permutation, and
    it is sorted whenever `less` is a strict order on the entries. */
module IndexSort {

  /** No later entry is strictly less than an earlier one. */
  ghost predicate Sorted<E>(less: (E, E) -> bool, s: seq<E>) {
    forall i, j :: 0 <= i < j < |s| ==> !less(s[j], s[i])
  }

  /** `less` is irreflexive and transitive on the entries of `s`. */
  ghost predicate StrictOrderOn<E>(less: (E, E) -> bool, s: seq<E>) {
    && (forall a :: a in s ==> !less(a, a))
    && (forall a, b, c :: a in s && b in s && c in s && less(a, b) && less(b, c) ==> less(a, c))
  }

  /** Puts `x` before the first entry it is strictly less than. */
  function Insert<E>(less: (E, E) -> bool, x: E, s: seq<E>): (r: seq<E>)
    ensures multiset(r) == multiset(s) + multiset{x}
    ensures |r| == |s| + 1
    decreases |s|
  {
    if |s| == 0 then [x]
    else if less(x, s[0]) then [x] + s
    else
      assert s == [s[0]] + s[1..];
      [s[0]] + Insert(less, x, s[1..])
  }

  /** Inserting into a sorted sequence keeps it sorted. */
  lemma {:induction false} InsertSorted<E>(less: (E, E) -> bool, x: E, s: seq<E>)
    requires StrictOrderOn(less, s + [x]) && Sorted(less, s)
    ensures Sorted(less, Insert(less, x, s))
    decreases |s|
  {
    var r := Insert(less, x, s);
    if |s| == 0 {
    } else if less(x, s[0]) {
      forall i, j | 0 <= i < j < |r|
        ensures !less(r[j], r[i])
      {
        if i == 0 {
          assert r[j] == s[j - 1];
          assert s[j - 1] in s + [x] && s[0] in s + [x] && x in s + [x];
          assert !less(s[j - 1], s[0]);
        } else {
          assert r[j] == s[j - 1] && r[i] == s[i - 1];
        }
      }
    } else {
      var t := Insert(less, x, s[1..]);
      assert r == [s[0]] + t;
      assert forall e :: e in s[1..] + [x] ==> e in s + [x];
      InsertSorted(less, x, s[1..]);
      forall i, j | 0 <= i < j < |r|
        ensures !less(r[j], r[i])
      {
        if i == 0 {
          assert r[j] == t[j - 1];
          assert t[j - 1] in multiset(t);
          if t[j - 1] != x {
            assert t[j - 1] in multiset(s[1..]);
            var k :| 0 <= k < |s[1..]| && s[1..][k] == t[j - 1];
            assert s[k + 1] == t[j - 1];
          }
        } else {
          assert r[j] == t[j - 1] && r[i] == t[i - 1];
        }
      }
    }
  }

  /** Insertion sort of the index entries. */
  function Sort<E>(less: (E, E) -> bool, s: seq<E>): (r: seq<E>)
    ensures multiset(r) == multiset(s)
    ensures |r| == |s|
    decreases |s|
  {
    if |s| == 0 then []
    else
      var init := s[..|s| - 1];
      assert s == init + [s[|s| - 1]];
      Insert(less, s[|s| - 1], Sort(less, init))
  }

  /** Under a strict order the sort yields a sorted permutation. */
  lemma {:induction false} SortSorted<E>(less: (E, E) -> bool, s: seq<E>)
    requires StrictOrderOn(less, s)
    ensures Sorted(less, Sort(less, s))
    decreases |s|
  {
    if |s| > 0 {
      var init := s[..|s| - 1];
      var x := s[|s| - 1];
      var sorted := Sort(less, init);
      assert forall e :: e in init ==> e in s;
      SortSorted(less, init);
      forall e | e in sorted + [x]
        ensures e in s
      {
        if e != x {
          assert e in multiset(sorted);
          assert e in multiset(init);
        }
      }
      InsertSorted(less, x, sorted);
    }
  }

  /** Exchanging two entries (the source's `Swap`) only permutes them. */
  function Swap<E>(s: seq<E>, i: int, j: int): (r: seq<E>)
    requires 0 <= i < |s| && 0 <= j < |s|
    ensures |r| == |s| && r[i] == s[j] && r[j] == s[i]
    ensures forall k :: 0 <= k < |s| && k != i && k != j ==> r[k] == s[k]
    ensures multiset(r) == multiset(s)
  {
    var r := s[i := s[j]][j := s[i]];
    r
  }
}

=== FILE: list.dfy ===
/** The list of common/paginator/list.go: the backing `list` of items, the
    visible `index` of positions into it, the sort configuration (attributes
    by name and the queue of active ones) and the filter state. The
    evaluator callbacks take items: the source's handlers resolve their
    position arguments through `Item(i)` before comparing or stringifying. */
module PagedList {
  import opened Optional
  import opened Seqs
  import opened SortOrder
  import OrdMap
  import Filtering
  import IndexSort

  /** The caller's `Stringify` and `Compare`. */
  datatype Evaluator<-T> = Evaluator(stringify: (T, string) -> string, compare: (T, T, string) -> bool)

  /** list.go's `Sorting`: attribute name, button text, order. */
  datatype SortAttribute = SortAttribute(attribute: string, alias: string, order: int8)

  type Attributes = OrdMap.OrderedMap<string, SortAttribute>

  datatype List<T> = List(
    list: seq<T>,
    index: seq<int>,
    attributes: Attributes,
    queue: seq<string>,
    filters: Filtering.Filters)

  /** Every visible entry is a valid position into the backing list. */
  ghost predicate IndexInRange<T>(ls: List<T>) {
    forall n :: 0 <= n < |ls.index| ==> 0 <= ls.index[n] < |ls.list|
  }

  /** Every queued attribute is configured, so `GetUnsafe` finds it. */
  predicate QueueKnown<T>(ls: List<T>) {
    forall n :: 0 <= n < |ls.queue| ==> ls.queue[n] in ls.attributes.store
  }

  /** The sort invariant: an attribute is in the queue iff its order is not
      "unsorted", at most once, every order is one of 0, 1, 2, and each
      configured attribute is stored under its own name. */
  ghost predicate SortInv<T>(ls: List<T>) {
    && OrdMap.Valid(ls.attributes)
    && (forall a :: a in ls.attributes.store ==> ls.attributes.store[a].attribute == a)
    && (forall a :: a in ls.attributes.store ==> IsDirection(ls.attributes.store[a].order))
    && NoDuplicates(ls.queue)
    && (forall a :: a in ls.queue <==> a in ls.attributes.store && ls.attributes.store[a].order != Unsorted)
  }

  ghost predicate Valid<T>(ls: List<T>) {
    && IndexInRange(ls)
    && SortInv(ls)
    && Filtering.Valid(ls.filters)
  }

  lemma SortInvQueueKnown<T>(ls: List<T>)
    requires SortInv(ls)
    ensures QueueKnown(ls)
  {
    assert forall n :: 0 <= n < |ls.queue| ==> ls.queue[n] in ls.queue;
  }

  /** A list with nothing stored and nothing configured. */
  function Empty<T>(): (ls: List<T>)
    ensures Valid(ls) && |ls.list| == 0 && |ls.index| == 0
  {
    List([], [], OrdMap.New(), [], OrdMap.New())
  }

  /** `Alloc`: empties the list and the index; the configuration stays. */
  function Alloc<T>(ls: List<T>): (r: List<T>)
    ensures |r.list| == 0 && |r.index| == 0
    ensures r.attributes == ls.attributes && r.queue == ls.queue && r.filters == ls.filters
    ensures SortInv(ls) && Filtering.Valid(ls.filters) ==> Valid(r)
  {
    ls.(list := [], index := [])
  }

  /** The item's value for each attribute, as the filters see it. */
  function ValueOf<T>(ev: Evaluator<T>, item: T): string -> string {
    a => ev.stringify(item, a)
  }

  /** `Append`: the item goes to the end of the list and its position to the
      end of the index; each filter attribute learns the item's value,
      disabled, if the value was new. */
  function Append<T>(ls: List<T>, ev: Evaluator<T>, item: T): (r: List<T>)
    requires Filtering.Valid(ls.filters)
    ensures r.list == ls.list + [item]
    ensures r.index == ls.index + [|ls.list|]
    ensures r.attributes == ls.attributes && r.queue == ls.queue
    ensures r.filters.keys == ls.filters.keys
    ensures forall a :: a in ls.filters.store ==> Filtering.Enabled(r.filters, a, ev.stringify(item, a)).Some?
    ensures forall a, v :: Filtering.Enabled(ls.filters, a, v).Some? ==>
      Filtering.Enabled(r.filters, a, v) == Filtering.Enabled(ls.filters, a, v)
    ensures forall a, v :: Filtering.Enabled(r.filters, a, v).Some? && Filtering.Enabled(ls.filters, a, v).None? ==>
      v == ev.stringify(item, a) && Filtering.Enabled(r.filters, a, v) == Some(false)
    ensures Valid(ls) ==> Valid(r)
  {
    List(ls.list + [item], ls.index + [|ls.list|], ls.attributes, ls.queue,
         Filtering.Discover(ls.filters, ValueOf(ev, item)))
  }

  /** Whether the current filters keep `item`. */
  function KeepItem<T>(filters: Filtering.Filters, ev: Evaluator<T>, item: T): bool
    requires Filtering.Valid(filters)
  {
    Filtering.Keep(filters, ValueOf(ev, item))
  }

  /** The positions below `n` whose items the filters keep, in increasing order. */
  function Kept<T>(list: seq<T>, filters: Filtering.Filters, ev: Evaluator<T>, n: nat): (ps: seq<int>)
    requires Filtering.Valid(filters) && n <= |list|
    ensures forall i, j :: 0 <= i < j < |ps| ==> ps[i] < ps[j]
    ensures forall k :: 0 <= k < |ps| ==> 0 <= ps[k] < n
    ensures forall p :: p in ps <==> 0 <= p < n && KeepItem(filters, ev, list[p])
    ensures |ps| <= n
  {
    if n == 0 then []
    else
      var ps := Kept(list, filters, ev, n - 1);
      assert forall k :: 0 <= k < |ps| ==> ps[k] < n - 1;
      if KeepItem(filters, ev, list[n - 1]) then ps + [n - 1] else ps
  }

  /** `Filter`: rebuilds the index from scratch as the increasing positions of
      the items the filters keep. */
  function Filter<T>(ls: List<T>, ev: Evaluator<T>): (r: List<T>)
    requires Filtering.Valid(ls.filters)
    ensures r.list == ls.list && r.attributes == ls.attributes && r.queue == ls.queue && r.filters == ls.filters
    ensures StrictlyIncreasing(r.index)
    ensures IndexInRange(r) && |r.index| <= |r.list|
    ensures forall p :: p in r.index <==> 0 <= p < |ls.list| && KeepItem(ls.filters, ev, ls.list[p])
    ensures SortInv(ls) ==> Valid(r)
  {
    ls.(index := Kept(ls.list, ls.filters, ev, |ls.list|))
  }

  /** After filtering, `Len` counts exactly the items the filters keep. */
  lemma LenCountsKept<T>(ls: List<T>, ev: Evaluator<T>)
    requires Filtering.Valid(ls.filters)
    ensures Len(Filter(ls, ev)) == |set p | 0 <= p < |ls.list| && KeepItem(ls.filters, ev, ls.list[p])|
  {
    var r := Filter(ls, ev);
    var kept := set p | 0 <= p < |ls.list| && KeepItem(ls.filters, ev, ls.list[p]);
    assert NoDuplicates(r.index);
    OrdMap.DistinctCount(r.index, kept);
  }

  /** Filtering again changes nothing. */
  lemma FilterIdempotent<T>(ls: List<T>, ev: Evaluator<T>)
    requires Filtering.Valid(ls.filters)
    ensures Filter(Filter(ls, ev), ev) == Filter(ls, ev)
  {
  }

  /** `SetupFiltering`: a fresh, empty value map per attribute, in the given
      order; items and sorting untouched. */
  function SetupFiltering<T>(ls: List<T>, attributes: seq<string>): (r: List<T>)
    ensures r.list == ls.list && r.index == ls.index && r.attributes == ls.attributes && r.queue == ls.queue
    ensures forall a :: a in r.filters.store <==> a in attributes
    ensures forall a :: a in r.filters.store ==> OrdMap.Len(r.filters.store[a]) == 0
    ensures NoDuplicates(attributes) ==> r.filters.keys == attributes
    ensures IndexInRange(ls) && SortInv(ls) ==> Valid(r)
  {
    assert NoDuplicates(attributes) ==> Filtering.Setup(attributes).keys == attributes by {
      if NoDuplicates(attributes) {
        Filtering.SetupOrder(attributes);
      }
    }
    ls.(filters := Filtering.Setup(attributes))
  }

  /** `ToggleFilter`: flips one known value of one known attribute; the
      visible index is not rebuilt. */
  function ToggleFilter<T>(ls: List<T>, attribute: string, value: string): (r: List<T>)
    requires Filtering.Valid(ls.filters)
    ensures r == ls.(filters := r.filters)
    ensures Filtering.Valid(r.filters)
    ensures Filtering.Enabled(ls.filters, attribute, value).Some? ==>
      Filtering.Enabled(r.filters, attribute, value) == Some(!Filtering.Enabled(ls.filters, attribute, value).value)
    ensures Filtering.Enabled(ls.filters, attribute, value).None? ==> r == ls
    ensures forall a, v :: (a, v) != (attribute, value) ==>
      Filtering.Enabled(r.filters, a, v) == Filtering.Enabled(ls.filters, a, v)
    ensures Valid(ls) ==> Valid(r)
  {
    ls.(filters := Filtering.Toggle(ls.filters, attribute, value))
  }

  /** `Reload`: `Filter` then `Sort`. The visible entries are exactly the
      kept items, each once, and only the index changes. */
  function Reload<T>(ls: List<T>, ev: Evaluator<T>): (r: List<T>)
    requires Valid(ls)
    ensures Valid(r)
    ensures r == ls.(index := r.index)
    ensures NoDuplicates(r.index)
    ensures forall p :: p in r.index <==> 0 <= p < |ls.list| && KeepItem(ls.filters, ev, ls.list[p])
    ensures ComparesStrictWeak(ls, ev) ==> forall n, m :: 0 <= n < m < |r.index| ==> !Less(r, ev, m, n)
  {
    var filtered := Filter(ls, ev);
    SortInvQueueKnown(filtered);
    var r := Sort(filtered, ev);
    SameEntries(filtered.index, r.index);
    r
  }

  /** A permutation of an increasing index has the same entries, each once. */
  lemma SameEntries(s: seq<int>, t: seq<int>)
    requires StrictlyIncreasing(s) && multiset(t) == multiset(s)
    ensures NoDuplicates(t)
    ensures forall p :: p in t <==> p in s
  {
    assert forall p :: p in t <==> p in multiset(s);
    DistinctPermutation(s, t);
  }

  /** `Delete(i)`: removes the item at visible position `i` from the backing
      list, keeping the others in order, then rebuilds the index by `Filter`. */
  function Delete<T>(ls: List<T>, ev: Evaluator<T>, i: int): (r: List<T>)
    requires Filtering.Valid(ls.filters)
    requires 0 <= i < |ls.index| && 0 <= ls.index[i] < |ls.list|
    ensures var idx := ls.index[i];
      && |r.list| == |ls.list| - 1
      && (forall k :: 0 <= k < idx ==> r.list[k] == ls.list[k])
      && (forall k :: idx <= k < |r.list| ==> r.list[k] == ls.list[k + 1])
    ensures multiset(r.list) + multiset{Item(ls, i)} == multiset(ls.list)
    ensures StrictlyIncreasing(r.index) && IndexInRange(r)
    ensures forall p :: p in r.index <==> 0 <= p < |r.list| && KeepItem(ls.filters, ev, r.list[p])
    ensures r.attributes == ls.attributes && r.queue == ls.queue && r.filters == ls.filters
    ensures Valid(ls) ==> Valid(r)
  {
    Filter(ls.(list := RemoveAt(ls.list, ls.index[i])), ev)
  }

  /** `Item(i)`: the item at visible position `i`. */
  function Item<T>(ls: List<T>, i: int): (item: T)
    requires 0 <= i < |ls.index| && 0 <= ls.index[i] < |ls.list|
    ensures item in ls.list
  {
    ls.list[ls.index[i]]
  }

  /** `Len` of the sort interface: the number of visible items. */
  function Len<T>(ls: List<T>): nat {
    |ls.index|
  }

  /** `Swap`: exchanges two visible entries; the set of entries is unchanged. */
  function Swap<T>(ls: List<T>, i: int, j: int): (r: List<T>)
    requires 0 <= i < |ls.index| && 0 <= j < |ls.index|
    ensures multiset(r.index) == multiset(ls.index) && |r.index| == |ls.index|
    ensures r.index[i] == ls.index[j] && r.index[j] == ls.index[i]
    ensures forall k :: 0 <= k < |ls.index| && k != i && k != j ==> r.index[k] == ls.index[k]
    ensures r.list == ls.list && r.attributes == ls.attributes && r.queue == ls.queue && r.filters == ls.filters
    ensures IndexInRange(ls) ==> IndexInRange(r)
  {
    ls.(index := IndexSort.Swap(ls.index, i, j))
  }

  /** The queue as sort keys: each queued attribute and whether its order is ascending. */
  function SortKeys<T>(ls: List<T>): (keys: seq<SortKey>)
    requires QueueKnown(ls)
    ensures |keys| == |ls.queue|
    ensures forall n :: 0 <= n < |keys| ==>
      keys[n] == SortKey(ls.queue[n], ls.attributes.store[ls.queue[n]].order == Ascending)
  {
    seq(|ls.queue|, n requires 0 <= n < |ls.queue| =>
      SortKey(ls.queue[n], ls.attributes.store[ls.queue[n]].order == Ascending))
  }

  /** `Less(i, j)`: the first queued attribute on which the two visible items
      differ decides, ascending when its order is 2 and descending otherwise;
      items tied on every queued attribute are not less. */
  function Less<T>(ls: List<T>, ev: Evaluator<T>, i: int, j: int): (r: bool)
    requires QueueKnown(ls)
    requires 0 <= i < |ls.index| && 0 <= ls.index[i] < |ls.list|
    requires 0 <= j < |ls.index| && 0 <= ls.index[j] < |ls.list|
    ensures var a, b := Item(ls, i), Item(ls, j);
      (forall n :: 0 <= n < |ls.queue| ==> Tied(ev.compare, a, b, ls.queue[n])) ==> !r
    ensures var a, b := Item(ls, i), Item(ls, j);
      forall n ::
        (&& 0 <= n < |ls.queue|
         && !Tied(ev.compare, a, b, ls.queue[n])
         && (forall m :: 0 <= m < n ==> Tied(ev.compare, a, b, ls.queue[m])))
        ==> r == if ev.compare(a, b, ls.queue[n])
                 then ls.attributes.store[ls.queue[n]].order == Ascending
                 else ls.attributes.store[ls.queue[n]].order != Ascending
  {
    var keys := SortKeys(ls);
    var a, b := Item(ls, i), Item(ls, j);
    assert forall n ::
      (&& 0 <= n < |ls.queue|
       && !Tied(ev.compare, a, b, ls.queue[n])
       && (forall m :: 0 <= m < n ==> Tied(ev.compare, a, b, ls.queue[m])))
      ==> FirstUntied(keys, ev.compare, a, b, n);
    LessBy(keys, ev.compare, a, b)
  }

  /** The order `Sort` uses on backing positions. */
  function PositionLess<T>(ls: List<T>, ev: Evaluator<T>): (int, int) -> bool
    requires QueueKnown(ls)
  {
    var keys := SortKeys(ls);
    var list := ls.list;
    (x: int, y: int) => 0 <= x < |list| && 0 <= y < |list| && LessBy(keys, ev.compare, list[x], list[y])
  }

  /** The caller's `Compare` is a strict weak order on the stored items for
      every queued attribute. */
  ghost predicate ComparesStrictWeak<T>(ls: List<T>, ev: Evaluator<T>) {
    forall n :: 0 <= n < |ls.queue| ==> StrictWeakOn(ev.compare, ls.queue[n], ls.list)
  }

  /** `Sort`: permutes the visible index and nothing else. When `Compare` is
      a strict weak order on every queued attribute, no visible item is
      strictly less (by the queue) than one shown before it. No stability. */
  function Sort<T>(ls: List<T>, ev: Evaluator<T>): (r: List<T>)
    requires QueueKnown(ls) && IndexInRange(ls)
    ensures multiset(r.index) == multiset(ls.index) && |r.index| == |ls.index|
    ensures r.list == ls.list && r.attributes == ls.attributes && r.queue == ls.queue && r.filters == ls.filters
    ensures IndexInRange(r)
    ensures ComparesStrictWeak(ls, ev) ==>
      forall n, m :: 0 <= n < m < |r.index| ==> !Less(r, ev, m, n)
    ensures Valid(ls) ==> Valid(r)
  {
    var less := PositionLess(ls, ev);
    var r := ls.(index := IndexSort.Sort(less, ls.index));
    assert IndexInRange(r) by {
      forall n | 0 <= n < |r.index| ensures 0 <= r.index[n] < |r.list| {
        assert r.index[n] in multiset(ls.index);
      }
    }
    assert ComparesStrictWeak(ls, ev) ==> forall n, m :: 0 <= n < m < |r.index| ==> !Less(r, ev, m, n) by {
      if ComparesStrictWeak(ls, ev) {
        SortedByQueue(ls, ev);
        forall n, m | 0 <= n < m < |r.index| ensures !Less(r, ev, m, n) {
          assert !less(r.index[m], r.index[n]);
        }
      }
    }
    r
  }

  lemma SortedByQueue<T>(ls: List<T>, ev: Evaluator<T>)
    requires QueueKnown(ls) && IndexInRange(ls) && ComparesStrictWeak(ls, ev)
    ensures IndexSort.Sorted(PositionLess(ls, ev), IndexSort.Sort(PositionLess(ls, ev), ls.index))
  {
    var keys := SortKeys(ls);
    var less := PositionLess(ls, ev);
    assert AllStrictWeakOn(keys, ev.compare, ls.list);
    LessByStrictOrder(keys, ev.compare, ls.list);
    assert IndexSort.StrictOrderOn(less, ls.index) by {
      forall x, y, z | x in ls.index && y in ls.index && z in ls.index && less(x, y) && less(y, z)
        ensures less(x, z)
      {
        assert ls.list[x] in ls.list && ls.list[y] in ls.list && ls.list[z] in ls.list;
      }
      forall x | x in ls.index ensures !less(x, x) {
        if 0 <= x < |ls.list| {
          assert ls.list[x] in ls.list;
        }
      }
    }
    IndexSort.SortSorted(less, ls.index);
  }

  /** The orders of a sequence of attributes. */
  function Orders(attrs: seq<SortAttribute>): (os: seq<int8>)
    ensures |os| == |attrs| && forall k :: 0 <= k < |attrs| ==> os[k] == attrs[k].order
  {
    seq(|attrs|, k requires 0 <= k < |attrs| => attrs[k].order)
  }

  ghost predicate DistinctNames(attrs: seq<SortAttribute>) {
    forall i, j :: 0 <= i < j < |attrs| ==> attrs[i].attribute != attrs[j].attribute
  }

  /** The storing half of the `SetupSorting` loop: each attribute goes under
      its name; a repeated name keeps its first place and takes its last value. */
  function StoreAttributes(attrs: seq<SortAttribute>): (m: Attributes)
    ensures OrdMap.Valid(m)
    ensures forall a :: a in m.store ==> m.store[a].attribute == a
    ensures forall a :: a in m.store <==> exists k :: 0 <= k < |attrs| && attrs[k].attribute == a
    decreases |attrs|
  {
    if |attrs| == 0 then OrdMap.New()
    else
      var init := attrs[..|attrs| - 1];
      var last := attrs[|attrs| - 1];
      var m := StoreAttributes(init);
      var r := OrdMap.Set(m, last.attribute, last);
      StoreAttributesNames(init, last, m, r);
      assert attrs == init + [last];
      r
  }

  /** One step of `StoreAttributes`: the stored names are those of the prefix
      and the last attribute. */
  lemma StoreAttributesNames(init: seq<SortAttribute>, last: SortAttribute, m: Attributes, r: Attributes)
    requires r == OrdMap.Set(m, last.attribute, last)
    requires forall a :: a in m.store <==> exists k :: 0 <= k < |init| && init[k].attribute == a
    ensures forall a :: a in r.store <==> exists k :: 0 <= k < |init + [last]| && (init + [last])[k].attribute == a
  {
    var attrs := init + [last];
    forall a ensures a in r.store <==> exists k :: 0 <= k < |attrs| && attrs[k].attribute == a {
      if a in m.store {
        var k :| 0 <= k < |init| && init[k].attribute == a;
        assert attrs[k] == init[k];
      }
      if a == last.attribute {
        assert attrs[|init|] == last;
      }
      if a != last.attribute && exists k :: 0 <= k < |attrs| && attrs[k].attribute == a {
        var k :| 0 <= k < |attrs| && attrs[k].attribute == a;
        assert attrs[k] == init[k];
      }
    }
  }

  /** With distinct names, the attributes are stored in array order, each
      under its own name. */
  lemma {:induction false} StoreAttributesDistinct(attrs: seq<SortAttribute>)
    requires DistinctNames(attrs)
    ensures var m := StoreAttributes(attrs);
      && |m.keys| == |attrs|
      && (forall k :: 0 <= k < |attrs| ==> m.keys[k] == attrs[k].attribute)
      && (forall k :: 0 <= k < |attrs| ==> m.store[attrs[k].attribute] == attrs[k])
    decreases |attrs|
  {
    if |attrs| > 0 {
      var init := attrs[..|attrs| - 1];
      var last := attrs[|attrs| - 1];
      assert attrs == init + [last];
      DistinctNamesSplit(init, last);
      StoreAttributesDistinct(init);
      StoreAttributesUnfold(attrs);
      StoreAttributesStep(init, last, StoreAttributes(init), StoreAttributes(attrs));
    }
  }

  /** Distinct names stay distinct in the prefix, and the last name is new. */
  lemma DistinctNamesSplit(init: seq<SortAttribute>, last: SortAttribute)
    requires DistinctNames(init + [last])
    ensures DistinctNames(init)
    ensures forall k :: 0 <= k < |init| ==> init[k].attribute != last.attribute
  {
    var attrs := init + [last];
    forall i, j | 0 <= i < j < |init| ensures init[i].attribute != init[j].attribute {
      assert init[i] == attrs[i] && init[j] == attrs[j];
    }
    forall k | 0 <= k < |init| ensures init[k].attribute != last.attribute {
      assert init[k] == attrs[k] && last == attrs[|init|];
    }
  }

  lemma StoreAttributesUnfold(attrs: seq<SortAttribute>)
    requires |attrs| > 0
    ensures StoreAttributes(attrs) ==
      OrdMap.Set(StoreAttributes(attrs[..|attrs| - 1]), attrs[|attrs| - 1].attribute, attrs[|attrs| - 1])
  {
  }

  /** The last step of the loop, given what the earlier steps stored. */
  lemma StoreAttributesStep(init: seq<SortAttribute>, last: SortAttribute, m: Attributes, r: Attributes)
    requires OrdMap.Valid(m) && r == OrdMap.Set(m, last.attribute, last)
    requires forall k :: 0 <= k < |init| ==> init[k].attribute != last.attribute
    requires |m.keys| == |init|
    requires forall k :: 0 <= k < |init| ==> m.keys[k] == init[k].attribute
    requires forall k :: 0 <= k < |init| ==> init[k].attribute in m.store && m.store[init[k].attribute] == init[k]
    ensures var attrs := init + [last];
      && |r.keys| == |attrs|
      && (forall k :: 0 <= k < |attrs| ==> r.keys[k] == attrs[k].attribute)
      && (forall k :: 0 <= k < |attrs| ==> r.store[attrs[k].attribute] == attrs[k])
  {
    var attrs := init + [last];
    assert last.attribute !in m.keys;
    assert r.keys == m.keys + [last.attribute];
    assert r.store == m.store[last.attribute := last];
    forall k | 0 <= k < |attrs| ensures r.store[attrs[k].attribute] == attrs[k] {
      if k < |init| { assert attrs[k] == init[k]; }
    }
  }

  /** The queueing half of the `SetupSorting` loop: the names whose order is
      set, in array order. */
  function QueueNames(attrs: seq<SortAttribute>): (q: seq<string>)
    ensures var ps := NonZeroPositions(Orders(attrs));
      |q| == |ps| && forall n :: 0 <= n < |ps| ==> q[n] == attrs[ps[n]].attribute
    decreases |attrs|
  {
    if |attrs| == 0 then []
    else
      var init := attrs[..|attrs| - 1];
      var last := attrs[|attrs| - 1];
      var q := QueueNames(init);
      assert Orders(init) == Orders(attrs)[..|attrs| - 1];
      if last.order != Unsorted then q + [last.attribute] else q
  }

  /** `SetupSorting`: configures the attributes and seeds the queue with the
      names whose order is set, in array order. */
  function SetupSorting<T>(ls: List<T>, attrs: seq<SortAttribute>): (r: List<T>)
    ensures r.list == ls.list && r.index == ls.index && r.filters == ls.filters
    ensures var ps := NonZeroPositions(Orders(attrs));
      |r.queue| == |ps| && forall n :: 0 <= n < |ps| ==> r.queue[n] == attrs[ps[n]].attribute
    ensures forall a :: a in r.attributes.store <==> exists k :: 0 <= k < |attrs| && attrs[k].attribute == a
    ensures DistinctNames(attrs) && (forall k :: 0 <= k < |attrs| ==> IsDirection(attrs[k].order)) ==> SortInv(r)
  {
    var r := ls.(attributes := StoreAttributes(attrs), queue := QueueNames(attrs));
    assert DistinctNames(attrs) && (forall k :: 0 <= k < |attrs| ==> IsDirection(attrs[k].order)) ==> SortInv(r) by {
      if DistinctNames(attrs) && (forall k :: 0 <= k < |attrs| ==> IsDirection(attrs[k].order)) {
        SetupSortingInv(ls, attrs);
      }
    }
    r
  }

  /** With distinct names and meaningful orders, the seeded queue holds
      exactly the attributes whose order is set, once each. */
  lemma SetupSortingInv<T>(ls: List<T>, attrs: seq<SortAttribute>)
    requires DistinctNames(attrs)
    requires forall k :: 0 <= k < |attrs| ==> IsDirection(attrs[k].order)
    ensures SortInv(ls.(attributes := StoreAttributes(attrs), queue := QueueNames(attrs)))
  {
    var m := StoreAttributes(attrs);
    StoreAttributesDistinct(attrs);
    forall a | a in m.store ensures IsDirection(m.store[a].order) {
      var k :| 0 <= k < |attrs| && attrs[k].attribute == a;
    }
    QueueNamesDistinct(attrs);
    QueueNamesMembers(attrs);
  }

  /** Distinct names are queued at most once. */
  lemma QueueNamesDistinct(attrs: seq<SortAttribute>)
    requires DistinctNames(attrs)
    ensures NoDuplicates(QueueNames(attrs))
  {
    var q := QueueNames(attrs);
    var ps := NonZeroPositions(Orders(attrs));
    forall i, j | 0 <= i < j < |q| ensures q[i] != q[j] {
      assert ps[i] < ps[j];
    }
  }

  /** A name is queued iff it is stored with its order set. */
  lemma QueueNamesMembers(attrs: seq<SortAttribute>)
    requires DistinctNames(attrs)
    ensures var m, q := StoreAttributes(attrs), QueueNames(attrs);
      forall a :: a in q <==> a in m.store && m.store[a].order != Unsorted
  {
    var m, q := StoreAttributes(attrs), QueueNames(attrs);
    var ps := NonZeroPositions(Orders(attrs));
    StoreAttributesDistinct(attrs);
    forall a
      ensures a in q <==> a in m.store && m.store[a].order != Unsorted
    {
      if a in q {
        var n :| 0 <= n < |q| && q[n] == a;
        assert ps[n] in ps;
      }
      if a in m.store && m.store[a].order != Unsorted {
        var k :| 0 <= k < |attrs| && attrs[k].attribute == a;
        assert k in ps;
        var n :| 0 <= n < |ps| && ps[n] == k;
        assert q[n] == a;
      }
    }
  }

  /** `ToggleSorting` is defined when the attribute is unknown (it logs and
      returns) or when leaving "ascending" finds it queued (otherwise
      `slices.Delete` is handed -1). */
  ghost predicate CanToggleSorting<T>(ls: List<T>, attribute: string) {
    attribute in ls.attributes.store && Inc(ls.attributes.store[attribute].order) > Ascending ==>
      attribute in ls.queue
  }

  /** `ToggleSorting`: `Order += 1` (int8); reaching 1 queues the attribute,
      passing 2 resets the order to 0 and removes it from the queue. An
      unknown attribute changes nothing. */
  function ToggleSorting<T>(ls: List<T>, attribute: string): (r: List<T>)
    requires CanToggleSorting(ls, attribute)
    ensures attribute !in ls.attributes.store ==> r == ls
    ensures r.list == ls.list && r.index == ls.index && r.filters == ls.filters
    ensures r.attributes.keys == ls.attributes.keys && r.attributes.store.Keys == ls.attributes.store.Keys
    ensures forall a :: a in ls.attributes.store && a != attribute ==> r.attributes.store[a] == ls.attributes.store[a]
    ensures attribute in ls.attributes.store ==>
      var h := ls.attributes.store[attribute];
      var o := Inc(h.order);
      && r.attributes.store[attribute] == h.(order := if o > Ascending then Unsorted else o)
      && (o == Descending ==> r.queue == ls.queue + [attribute])
      && (o > Ascending ==> r.queue == RemoveAt(ls.queue, IndexOf(ls.queue, attribute)))
      && (o != Descending && o <= Ascending ==> r.queue == ls.queue)
  {
    match OrdMap.Get(ls.attributes, attribute)
    case None => ls
    case Some(h) =>
      var o := Inc(h.order);
      if o == Descending then
        ls.(attributes := OrdMap.Set(ls.attributes, attribute, h.(order := o)), queue := ls.queue + [attribute])
      else if o > Ascending then
        ls.(attributes := OrdMap.Set(ls.attributes, attribute, h.(order := Unsorted)),
            queue := RemoveAt(ls.queue, IndexOf(ls.queue, attribute)))
      else
        ls.(attributes := OrdMap.Set(ls.attributes, attribute, h.(order := o)))
  }

  /** The sort invariant makes every toggle defined and survives it; on a
      configured attribute the order moves one step around 0 -> 1 -> 2 -> 0. */
  lemma ToggleSortingInv<T>(ls: List<T>, attribute: string)
    requires SortInv(ls)
    ensures CanToggleSorting(ls, attribute)
    ensures SortInv(ToggleSorting(ls, attribute))
    ensures attribute in ls.attributes.store ==>
      ToggleSorting(ls, attribute).attributes.store[attribute].order
        == NextOrder(ls.attributes.store[attribute].order)
  {
    if attribute in ls.attributes.store {
      var h := ls.attributes.store[attribute];
      var r := ToggleSorting(ls, attribute);
      assert h.attribute == attribute;
      assert r.attributes.store == ls.attributes.store[attribute := r.attributes.store[attribute]];
      if Inc(h.order) > Ascending {
        RemoveFirstOccurrence(ls.queue, attribute);
      }
    }
  }
}

=== FILE: optional.dfy ===
/** A value that may be absent: the model's rendering of Go's `(value, ok)` results. */
module Optional {

  datatype Option<+T> = None | Some(value: T) {

    /** The value, or `default` when absent (Go's zero value for a missing map key). */
    function GetOr(default: T): (r: T)
      ensures Some? ==> r == value
      ensures None? ==> r == default
    {
      match this
      case Some(v) => v
      case None => default
    }
  }
}

=== FILE: ordmap.dfy ===
/** The insertion-ordered map of common/ordmap/ordmap.go: a slice of keys in
    first-insertion order next to a Go map holding the values. Filter buttons
    and sort headers take their on-screen order from `keys`. */
module OrdMap {
  import opened Optional
  import opened Seqs

  datatype OrderedMap<K, V> = OrderedMap(keys: seq<K>, store: map<K, V>)

  /** The representation invariant kept by `New` and `Set`: every stored key
      is listed in `keys` exactly once, and nothing else is listed. */
  ghost predicate Valid<K(!new), V>(om: OrderedMap<K, V>) {
    && NoDuplicates(om.keys)
    && forall k :: k in om.keys <==> k in om.store
  }

  function New<K(!new), V>(): (om: OrderedMap<K, V>)
    ensures Valid(om)
    ensures Len(om) == 0 && |om.store| == 0
  {
    OrderedMap([], map[])
  }

  /** Inserts or overwrites. A new key goes to the end of the order; an
      existing key keeps its place. */
  function Set<K(==,!new), V>(om: OrderedMap<K, V>, key: K, value: V): (r: OrderedMap<K, V>)
    ensures Get(r, key) == Some(value)
    ensures forall k :: k != key ==> Get(r, k) == Get(om, k)
    ensures r.store == om.store[key := value]
    ensures key in om.store ==> r.keys == om.keys
    ensures key !in om.store ==> r.keys == om.keys + [key]
    ensures Valid(om) ==> Valid(r) && Len(r) == if key in om.store then Len(om) else Len(om) + 1
  {
    if key in om.store then
      OrderedMap(om.keys, om.store[key := value])
    else
      OrderedMap(om.keys + [key], om.store[key := value])
  }

  /** Go's `val, ok := om.store[key]`. */
  function Get<K(==,!new), V>(om: OrderedMap<K, V>, key: K): (r: Option<V>)
    ensures r.Some? ==> key in om.store && r.value == om.store[key]
    ensures Valid(om) ==> (r.Some? <==> key in om.keys)
  {
    if key in om.store then Some(om.store[key]) else None
  }

  /** `GetOne` / `GetUnsafe`: the value, or the zero value `zero` of V when absent. */
  function GetOne<K(==,!new), V>(om: OrderedMap<K, V>, key: K, zero: V): (r: V)
    ensures key in om.store ==> r == om.store[key]
    ensures key !in om.store ==> r == zero
  {
    Get(om, key).GetOr(zero)
  }

  function Len<K(!new), V>(om: OrderedMap<K, V>): nat {
    |om.keys|
  }

  /** Under the invariant, `Len` (the length of the key order) is the number of stored entries. */
  lemma LenCountsEntries<K(!new), V>(om: OrderedMap<K, V>)
    requires Valid(om)
    ensures Len(om) == |om.store|
  {
    DistinctCount(om.keys, om.store.Keys);
  }

  /** A duplicate-free sequence has as many elements as the set it enumerates. */
  lemma {:induction false} DistinctCount<K(!new)>(keys: seq<K>, domain: set<K>)
    requires NoDuplicates(keys)
    requires forall k :: k in keys <==> k in domain
    ensures |domain| == |keys|
    decreases |keys|
  {
    if |keys| > 0 {
      var last := keys[|keys| - 1];
      var init := keys[..|keys| - 1];
      forall k
        ensures k in init <==> k in domain - {last}
      {
        if k in init {
          var i :| 0 <= i < |init| && init[i] == k;
          assert keys[i] == k && i < |keys| - 1;
        }
        if k in domain - {last} {
          var i :| 0 <= i < |keys| && keys[i] == k;
          assert i != |keys| - 1;
          assert init[i] == k;
        }
      }
      DistinctCount(init, domain - {last});
    }
  }

  /** The value of the i-th inserted key (Go indexes `keys[i]`, panicking out of range). */
  function GetByIndex<K(==,!new), V>(om: OrderedMap<K, V>, i: int): (r: Option<V>)
    requires 0 <= i < |om.keys|
    ensures Valid(om) ==> r == Some(om.store[om.keys[i]])
  {
    Get(om, om.keys[i])
  }

  function GetOneByIndex<K(==,!new), V>(om: OrderedMap<K, V>, i: int): (r: V)
    requires Valid(om) && 0 <= i < Len(om)
    ensures Get(om, om.keys[i]) == Some(r)
  {
    om.store[om.keys[i]]
  }

  /** `IterKeys`: the keys numbered by insertion rank. */
  function IterKeys<K(!new), V>(om: OrderedMap<K, V>): (r: seq<(int, K)>)
    ensures |r| == |om.keys|
    ensures forall i :: 0 <= i < |r| ==> r[i].0 == i && r[i].1 == om.keys[i]
  {
    seq(|om.keys|, i requires 0 <= i < |om.keys| => (i, om.keys[i]))
  }

  /** `Iter`: every key once, in first-insertion order, with its current value. */
  function Iter<K(!new), V>(om: OrderedMap<K, V>): (r: seq<(K, V)>)
    requires Valid(om)
    ensures |r| == Len(om)
    ensures forall k :: k in om.store <==> exists i :: 0 <= i < |r| && r[i].0 == k
    ensures forall i, j :: 0 <= i < j < |r| ==> r[i].0 != r[j].0
    ensures forall i :: 0 <= i < |r| ==> r[i].0 in om.store && r[i].1 == om.store[r[i].0]
    ensures forall i :: 0 <= i < |r| ==> r[i].0 == om.keys[i]
  {
    var r := seq(|om.keys|, i requires 0 <= i < |om.keys| => (om.keys[i], om.store[om.keys[i]]));
    assert forall k :: k in om.store ==> exists i :: 0 <= i < |r| && r[i].0 == k by {
      forall k | k in om.store
        ensures exists i :: 0 <= i < |r| && r[i].0 == k
      {
        var i :| 0 <= i < |om.keys| && om.keys[i] == k;
        assert r[i].0 == k;
      }
    }
    r
  }
}

=== FILE: paginator.dfy ===
/** The view state machine of common/paginator/paginator.go over the list of
    common/paginator/list.go: which page is shown, which item is selected,
    whether the sort and filter controls are open, the message text and
    keyboard last sent, and the callback commands that move between these
    states. Bot calls are returned as effect values; the caller's callbacks
    (`ItemString`, `Footer`, `Actions`, `Execute`, and the list's evaluator)
    are parameters. */
module Pagination {
  import opened Optional
  import opened Seqs
  import opened Decimal
  import opened SortOrder
  import OrdMap
  import Filtering
  import PagedList

  /** The command words of the callback protocol. The three tags are ten
      characters long; the handler reads the rest of the command as payload. */
  const OrderByTag: string := "#order_by#"
  const FilterByTag: string := "#filterby#"
  const ActionTag: string := "#action__#"
  const NextPageCmd: string := "next_page"
  const PrevPageCmd: string := "prev_page"
  const ToggleFiltersCmd: string := "toggle_filters"
  const StubCmd: string := "stub"
  const TagLength: nat := 10

  /** Button rows wrap after this many filter values, and after this many actions. */
  const FiltersPerRow: nat := 4
  const ActionsPerRow: nat := 2

  /** What a button shows, without the markup and glyphs. */
  datatype Caption =
    | ItemNumber(number: int, selected: bool)
    | SortLabel(alias: string, order: int8)
    | FilterLabel(value: string, enabled: bool)
    | PrevArrow
    | NextArrow
    | Stub
    | CollapseControls
    | ExpandControls
    | ActionLabel(action: string)

  /** A button: its caption and its callback data. */
  datatype Button = Button(caption: Caption, data: string)

  type Keyboard = seq<seq<Button>>

  /** The first line of the message. */
  datatype HeaderLine = Results(first: int, last: int, total: int) | EmptyList

  /** One item line: its 1-based number, the caller's text, and whether it is underlined. */
  datatype Line = Line(number: int, text: string, underlined: bool)

  /** The message text: `Blank` before anything was built. */
  datatype Text = Blank | Page(header: HeaderLine, lines: seq<Line>, footer: Option<string>)

  /** The caller's side of the interface. The source passes visible
      positions, and its handlers resolve them through `Item(i)`; so here
      `itemString` and `actions` take the item, and `footer` the visible
      items in display order. `execute` keeps the position: the selection it
      is given is never range-checked. */
  datatype Caller<-T> = Caller(
    ev: PagedList.Evaluator<T>,
    itemString: T -> string,
    footer: seq<T> -> string,
    actions: T -> seq<string>,
    execute: (int, string) -> bool)

  /** The fields the text and keyboard are built from. */
  datatype View<T> = View(
    ls: PagedList.List<T>,
    prefix: string,
    itemsPerPage: int,
    activePage: int,
    selectedItem: int,
    controlsVisible: bool)

  /** The paginator: its view and the text and keyboard it last sent. */
  datatype Paginator<T> = Paginator(view: View<T>, text: Text, keyboard: Keyboard)

  /** A usable view: a valid list, a positive page size (every keyboard
      build divides by it) and a page number that never went below zero. */
  ghost predicate Valid<T>(v: View<T>) {
    && PagedList.Valid(v.ls)
    && v.itemsPerPage > 0
    && v.activePage >= 0
  }

  /** The number of visible items. */
  function Len<T>(v: View<T>): nat {
    PagedList.Len(v.ls)
  }

  /** `New`: nothing selected, first page, controls hidden, nothing sent yet. */
  function New<T>(prefix: string, itemsPerPage: int): (p: Paginator<T>)
    ensures p.view.selectedItem == -1 && p.view.activePage == 0 && !p.view.controlsVisible
    ensures p.view.prefix == prefix && p.view.itemsPerPage == itemsPerPage && Len(p.view) == 0
    ensures p.text == Blank && p.keyboard == []
    ensures itemsPerPage > 0 ==> Valid(p.view)
  {
    Paginator(View(PagedList.Empty(), prefix, itemsPerPage, 0, -1, false), Blank, [])
  }

  /** Go's `/` on `int`: the quotient truncated toward zero. */
  function GoDiv(a: int, b: int): (q: int)
    requires b > 0
    ensures a >= 0 ==> 0 <= a - q * b < b
    ensures a < 0 ==> -b < a - q * b <= 0
  {
    if a >= 0 then a / b else -((-a) / b)
  }

  /** `pageBounds`: the visible positions `[from, to)` of the active page. */
  function PageBounds<T>(v: View<T>): (r: (int, int))
    ensures r.0 == v.activePage * v.itemsPerPage
    ensures r.1 <= Len(v) && r.1 <= r.0 + v.itemsPerPage
    ensures r.1 == Len(v) || r.1 == r.0 + v.itemsPerPage
    ensures Valid(v) ==> 0 <= r.0
  {
    var from := v.activePage * v.itemsPerPage;
    var to := from + v.itemsPerPage;
    if to > Len(v) then (from, Len(v)) else (from, to)
  }

  /** `Header`: "results: first-last of total" for a non-empty page, and
      "the list is empty" otherwise. */
  function Header<T>(v: View<T>): (h: HeaderLine)
    ensures var (from, to) := PageBounds(v);
      && (h.Results? <==> from < to)
      && (h.Results? ==> h.first == from + 1 && h.last == to && h.total == Len(v))
  {
    var (from, to) := PageBounds(v);
    if from < to then Results(from + 1, to, Len(v)) else EmptyList
  }

  /** The visible items in display order. */
  function VisibleItems<T>(v: View<T>): (items: seq<T>)
    requires Valid(v)
    ensures |items| == Len(v)
    ensures forall k :: 0 <= k < |items| ==> items[k] == PagedList.Item(v.ls, k)
  {
    seq(Len(v), k requires 0 <= k < Len(v) => PagedList.Item(v.ls, k))
  }

  /** The line of visible position `i`: the caller's rendering of the item
      shown there. */
  function ItemLine<T>(v: View<T>, caller: Caller<T>, i: int): Line
    requires Valid(v) && 0 <= i < Len(v)
  {
    Line(i + 1, caller.itemString(PagedList.Item(v.ls, i)), i == v.selectedItem)
  }

  /** `buildText`: the header, one numbered line per item of the page (the
      selected one underlined), and the footer over the visible items when it
      is not empty. */
  function BuildText<T>(v: View<T>, caller: Caller<T>): (t: Text)
    requires Valid(v)
    ensures t.Page? && t.header == Header(v)
    ensures var (from, to) := PageBounds(v);
      && |t.lines| == (if from < to then to - from else 0)
      && forall k :: 0 <= k < |t.lines| ==>
        && from + k < Len(v)
        && t.lines[k].number == from + k + 1
        && t.lines[k].text == caller.itemString(PagedList.Item(v.ls, from + k))
        && (t.lines[k].underlined <==> from + k == v.selectedItem)
    ensures var footer := caller.footer(VisibleItems(v));
      && (t.footer.Some? <==> |footer| > 0)
      && (t.footer.Some? ==> t.footer.value == footer)
  {
    var (from, to) := PageBounds(v);
    var n := if from < to then to - from else 0;
    var lines := seq(n, k requires 0 <= k < n => ItemLine(v, caller, from + k));
    assert forall k :: 0 <= k < n ==> lines[k] == ItemLine(v, caller, from + k);
    var footer := caller.footer(VisibleItems(v));
    Page(Header(v), lines, if |footer| > 0 then Some(footer) else None)
  }

  /** The text shows the items themselves: when a position on the page holds
      an item the caller renders differently, the text differs, so a
      refresh from the old text edits it. */
  lemma TextFollowsItems<T>(v: View<T>, w: View<T>, caller: Caller<T>, i: int, keyboard: Keyboard)
    requires Valid(v) && Valid(w)
    requires w.activePage == v.activePage && w.itemsPerPage == v.itemsPerPage
    requires PageBounds(v).0 <= i < PageBounds(v).1 && i < Len(w)
    requires caller.itemString(PagedList.Item(v.ls, i)) != caller.itemString(PagedList.Item(w.ls, i))
    ensures BuildText(w, caller) != BuildText(v, caller)
    ensures Refresh(Paginator(w, BuildText(v, caller), keyboard), caller).1.EditText?
  {
    var k := i - PageBounds(v).0;
    assert BuildText(w, caller).lines[k].text != BuildText(v, caller).lines[k].text;
  }

  /** The header counts exactly the lines shown: numbered `first` to `last`,
      never more than a page, out of `total` visible items. */
  lemma HeaderCountsLines<T>(v: View<T>, caller: Caller<T>)
    requires Valid(v)
    ensures var t := BuildText(v, caller);
      match t.header
      case EmptyList => |t.lines| == 0
      case Results(first, last, total) =>
        && |t.lines| == last - first + 1 <= v.itemsPerPage
        && total == Len(v)
        && t.lines[0].number == first && t.lines[|t.lines| - 1].number == last
  {
  }

  /** Exactly the selected item's line is underlined, and only when the
      selection is on the page. */
  lemma SelectedLineUnderlined<T>(v: View<T>, caller: Caller<T>)
    requires Valid(v)
    ensures var t := BuildText(v, caller);
      var (from, to) := PageBounds(v);
      && (forall k :: 0 <= k < |t.lines| && t.lines[k].underlined ==> t.lines[k].number == v.selectedItem + 1)
      && ((exists k :: 0 <= k < |t.lines| && t.lines[k].underlined) <==> from <= v.selectedItem < to)
  {
    var t := BuildText(v, caller);
    var (from, to) := PageBounds(v);
    if from <= v.selectedItem < to {
      assert t.lines[v.selectedItem - from].underlined;
    }
  }

  // ---------------------------------------------------------------- keyboard

  /** The commands the buttons carry after the prefix. */
  function SelectCommand(i: nat): string {
    Itoa(i)
  }

  function OrderByCommand(attribute: string): string {
    OrderByTag + attribute
  }

  function FilterCommand(attribute: string, value: string): string {
    FilterByTag + attribute + "/" + value
  }

  function ActionCommand(action: string): string {
    ActionTag + action
  }

  /** The button of visible position `i`: its 1-based number, bracketed when
      selected, and the prefix followed by the position. */
  function ItemButton<T>(v: View<T>, i: nat): Button {
    Button(ItemNumber(i + 1, i == v.selectedItem), v.prefix + SelectCommand(i))
  }

  /** The row of item buttons, one per position of the page. */
  function ItemRow<T>(v: View<T>): (row: seq<Button>)
    requires Valid(v)
    ensures var (from, to) := PageBounds(v);
      && |row| == (if from < to then to - from else 0)
      && forall k :: 0 <= k < |row| ==> row[k] == ItemButton(v, from + k)
  {
    var (from, to) := PageBounds(v);
    var n := if from < to then to - from else 0;
    seq(n, k requires 0 <= k < n => ItemButton(v, from + k))
  }

  function SortButton<T>(v: View<T>, h: PagedList.SortAttribute): Button {
    Button(SortLabel(h.alias, h.order), v.prefix + OrderByCommand(h.attribute))
  }

  /** The sort buttons, one per configured attribute, in configuration order. */
  function SortRow<T>(v: View<T>): (row: seq<Button>)
    requires Valid(v)
    ensures |row| == |v.ls.attributes.keys|
    ensures forall k :: 0 <= k < |row| ==>
      && v.ls.attributes.keys[k] in v.ls.attributes.store
      && row[k] == SortButton(v, v.ls.attributes.store[v.ls.attributes.keys[k]])
  {
    var attrs := OrdMap.Iter(v.ls.attributes);
    seq(|attrs|, k requires 0 <= k < |attrs| => SortButton(v, attrs[k].1))
  }

  function FilterButton<T>(v: View<T>, attribute: string, value: string, enabled: bool): Button {
    Button(FilterLabel(value, enabled), v.prefix + FilterCommand(attribute, value))
  }

  /** One attribute's filter buttons: each known value with its flag, in
      discovery order. */
  function ValueButtons<T>(v: View<T>, attribute: string, values: Filtering.Values): (row: seq<Button>)
    requires OrdMap.Valid(values)
    ensures |row| == |values.keys|
    ensures forall k :: 0 <= k < |row| ==>
      && values.keys[k] in values.store
      && row[k] == FilterButton(v, attribute, values.keys[k], values.store[values.keys[k]])
  {
    var vs := OrdMap.Iter(values);
    seq(|vs|, k requires 0 <= k < |vs| => FilterButton(v, attribute, vs[k].0, vs[k].1))
  }

  /** The buttons of the `k`-th filter attribute. */
  function AttributeButtons<T>(v: View<T>, k: nat): seq<Button>
    requires Valid(v) && k < |v.ls.filters.keys|
  {
    var a := v.ls.filters.keys[k];
    assert a in v.ls.filters.keys;
    ValueButtons(v, a, v.ls.filters.store[a])
  }

  /** The filter rows of the first `n` attributes: each attribute's buttons
      wrapped after four, every attribute starting a row of its own; an
      attribute with no known value has no row. */
  function FilterRows<T>(v: View<T>, n: nat): (rows: Keyboard)
    requires Valid(v) && n <= |v.ls.filters.keys|
    ensures forall row :: row in rows ==> 0 < |row| <= FiltersPerRow
    ensures Flatten(rows) == FilterButtons(v, n)
    ensures forall i :: 0 <= i < |rows| ==>
      exists k :: 0 <= k < n && forall b :: b in rows[i] ==> b in AttributeButtons(v, k)
    decreases n
  {
    if n == 0 then []
    else
      var prev := FilterRows(v, n - 1);
      var chunk := Chunk(AttributeButtons(v, n - 1), FiltersPerRow);
      FlattenConcat(prev, chunk);
      var rows := prev + chunk;
      assert forall i :: 0 <= i < |rows| ==>
        exists k :: 0 <= k < n && forall b :: b in rows[i] ==> b in AttributeButtons(v, k) by {
        forall i | 0 <= i < |rows|
          ensures exists k :: 0 <= k < n && forall b :: b in rows[i] ==> b in AttributeButtons(v, k)
        {
          if i < |prev| {
            assert rows[i] == prev[i];
          } else {
            var row := chunk[i - |prev|];
            assert rows[i] == row;
            forall b | b in row ensures b in AttributeButtons(v, n - 1) {
              FlattenMember(chunk, b);
            }
          }
        }
      }
      rows
  }

  /** The filter buttons of the first `n` attributes laid end to end: every
      known value of every attribute once, with its flag. */
  function FilterButtons<T>(v: View<T>, n: nat): (bs: seq<Button>)
    requires Valid(v) && n <= |v.ls.filters.keys|
    ensures forall b :: b in bs ==> b.caption.FilterLabel? && v.prefix <= b.data
    ensures forall k, j :: 0 <= k < n && 0 <= j < |v.ls.filters.store[v.ls.filters.keys[k]].keys| ==>
      var a := v.ls.filters.keys[k];
      var val := v.ls.filters.store[a].keys[j];
      FilterButton(v, a, val, v.ls.filters.store[a].store[val]) in bs
    decreases n
  {
    if n == 0 then []
    else
      var a := v.ls.filters.keys[n - 1];
      assert a in v.ls.filters.keys;
      var row := ValueButtons(v, a, v.ls.filters.store[a]);
      var bs := FilterButtons(v, n - 1) + row;
      assert forall j :: 0 <= j < |row| ==> row[j] in bs;
      bs
  }

  /** The navigation row: previous page, open/close the controls, next page.
      A direction that cannot be taken shows a stub. */
  function NavRow<T>(v: View<T>): (row: seq<Button>)
    requires v.itemsPerPage > 0
    ensures |row| == 3
    ensures row[0] == if v.activePage > 0 then Button(PrevArrow, v.prefix + PrevPageCmd) else Button(Stub, v.prefix + StubCmd)
    ensures row[1].data == v.prefix + ToggleFiltersCmd
    ensures row[1].caption == if v.controlsVisible then CollapseControls else ExpandControls
    ensures row[2] == if v.activePage < GoDiv(Len(v) - 1, v.itemsPerPage)
      then Button(NextArrow, v.prefix + NextPageCmd) else Button(Stub, v.prefix + StubCmd)
  {
    [ if v.activePage > 0 then Button(PrevArrow, v.prefix + PrevPageCmd) else Button(Stub, v.prefix + StubCmd),
      Button(if v.controlsVisible then CollapseControls else ExpandControls, v.prefix + ToggleFiltersCmd),
      if v.activePage < GoDiv(Len(v) - 1, v.itemsPerPage)
      then Button(NextArrow, v.prefix + NextPageCmd) else Button(Stub, v.prefix + StubCmd) ]
  }

  function ActionButtons<T>(v: View<T>, actions: seq<string>): (row: seq<Button>)
    ensures |row| == |actions|
    ensures forall k :: 0 <= k < |row| ==> row[k] == Button(ActionLabel(actions[k]), v.prefix + ActionCommand(actions[k]))
  {
    seq(|actions|, k requires 0 <= k < |actions| => Button(ActionLabel(actions[k]), v.prefix + ActionCommand(actions[k])))
  }

  /** Whether the action rows are shown: controls closed and the selected
      item on the active page. */
  predicate ShowsActions<T>(v: View<T>) {
    var (from, to) := PageBounds(v);
    !v.controlsVisible && from <= v.selectedItem < to
  }

  /** The action rows: the selected item's actions, wrapped after two. */
  function ActionRows<T>(v: View<T>, caller: Caller<T>): (rows: Keyboard)
    requires Valid(v)
    ensures !ShowsActions(v) ==> rows == []
    ensures forall row :: row in rows ==> 0 < |row| <= ActionsPerRow
    ensures ShowsActions(v) ==> 0 <= v.selectedItem < Len(v)
    ensures ShowsActions(v) ==> Flatten(rows) == ActionButtons(v, caller.actions(PagedList.Item(v.ls, v.selectedItem)))
  {
    if ShowsActions(v) then Chunk(ActionButtons(v, caller.actions(PagedList.Item(v.ls, v.selectedItem))), ActionsPerRow) else []
  }

  /** The rows shown only while the controls are open: the sort row, if any
      attribute is configured, and the filter rows. */
  function ControlRows<T>(v: View<T>): (rows: Keyboard)
    requires Valid(v)
    ensures !v.controlsVisible ==> rows == []
    ensures forall row :: row in rows ==> |row| > 0
  {
    if v.controlsVisible then
      var sorts := SortRow(v);
      (if |sorts| > 0 then [sorts] else []) + FilterRows(v, |v.ls.filters.keys|)
    else []
  }

  /** `buildKeyboard`: the item row, then (controls open) the sort row and the
      filter rows, then the navigation row, then (controls closed and an item
      of the page selected) the action rows. Empty rows are left out. */
  function BuildKeyboard<T>(v: View<T>, caller: Caller<T>): (kb: Keyboard)
    requires Valid(v)
    ensures NavRow(v) in kb
    ensures forall row :: row in kb ==> |row| > 0
    ensures PageBounds(v).0 < PageBounds(v).1 ==> kb[0] == ItemRow(v)
  {
    var items := ItemRow(v);
    (if |items| > 0 then [items] else []) + ControlRows(v) + [NavRow(v)] + ActionRows(v, caller)
  }

  // ---------------------------------------------------------------- refresh

  /** The bot call a refresh makes: nothing, a text edit (which also sends
      the keyboard), or a keyboard-only edit. */
  datatype Effect = NoCall | EditText(text: Text, keyboard: Keyboard) | EditMarkup(keyboard: Keyboard)

  /** `Refresh`: rebuilds text and keyboard, keeps them as the new snapshot,
      and edits the message only as much as needed. */
  function Refresh<T>(p: Paginator<T>, caller: Caller<T>): (r: (Paginator<T>, Effect))
    requires Valid(p.view)
    ensures r.0 == Paginator(p.view, BuildText(p.view, caller), BuildKeyboard(p.view, caller))
    ensures r.1.EditText? <==> r.0.text != p.text
    ensures r.1.EditMarkup? <==> r.0.text == p.text && r.0.keyboard != p.keyboard
    ensures r.1.NoCall? <==> r.0.text == p.text && r.0.keyboard == p.keyboard
    ensures r.1.EditText? ==> r.1.text == r.0.text && r.1.keyboard == r.0.keyboard
    ensures r.1.EditMarkup? ==> r.1.keyboard == r.0.keyboard
  {
    var text := BuildText(p.view, caller);
    var keyboard := BuildKeyboard(p.view, caller);
    var effect :=
      if text != p.text then EditText(text, keyboard)
      else if keyboard != p.keyboard then EditMarkup(keyboard)
      else NoCall;
    (Paginator(p.view, text, keyboard), effect)
  }

  /** A second refresh with nothing changed in between makes no call and
      changes nothing. */
  lemma RefreshSettles<T>(p: Paginator<T>, caller: Caller<T>)
    requires Valid(p.view)
    ensures var q := Refresh(p, caller).0;
      Refresh(q, caller) == (q, NoCall)
  {
  }

  /** The registration step of `Show`: the handler registered for the
      prefix, if any, is unregistered, and `handlerId` (the id the bot hands
      back on registration) takes its place in the package-wide registry. */
  function Register(registry: map<string, string>, prefix: string, handlerId: string): (r: (map<string, string>, Option<string>))
    ensures r.0.Keys == registry.Keys + {prefix}
    ensures r.0[prefix] == handlerId
    ensures forall k :: k in registry && k != prefix ==> r.0[k] == registry[k]
    ensures prefix in registry <==> r.1.Some?
    ensures prefix in registry ==> r.1 == Some(registry[prefix])
  {
    (registry[prefix := handlerId], if prefix in registry then Some(registry[prefix]) else None)
  }

  /** Registering again under the same prefix unregisters the handler the
      first registration installed: one handler per prefix. */
  lemma RegisterTwice(registry: map<string, string>, prefix: string, first: string, second: string)
    ensures var (reg1, _) := Register(registry, prefix, first);
      Register(reg1, prefix, second) == (registry[prefix := second], Some(first))
  {
    var (reg1, _) := Register(registry, prefix, first);
    assert reg1[prefix := second] == registry[prefix := second];
  }

  /** What `Show` leaves behind: the paginator with its snapshot taken, the
      registry, the handler id it unregistered, and the message it sends. */
  datatype Shown<T> = Shown(p: Paginator<T>, registry: map<string, string>, unregistered: Option<string>, sent: (Text, Keyboard))

  /** `Show`: registers the handler, builds text and keyboard, keeps them as
      the snapshot and sends them as a new message. */
  function Show<T>(p: Paginator<T>, caller: Caller<T>, registry: map<string, string>, handlerId: string): (r: Shown<T>)
    requires Valid(p.view)
    ensures r.p == Refresh(p, caller).0
    ensures r.sent == (r.p.text, r.p.keyboard)
    ensures (r.registry, r.unregistered) == Register(registry, p.view.prefix, handlerId)
  {
    var q := Refresh(p, caller).0;
    var (reg, unregistered) := Register(registry, p.view.prefix, handlerId);
    Shown(q, reg, unregistered, (q.text, q.keyboard))
  }

  /** Right after `Show`, a refresh makes no bot call. */
  lemma ShowThenRefresh<T>(p: Paginator<T>, caller: Caller<T>, registry: map<string, string>, handlerId: string)
    requires Valid(p.view)
    ensures var q := Show(p, caller, registry, handlerId).p;
      Refresh(q, caller) == (q, NoCall)
  {
    RefreshSettles(p, caller);
  }

  // ---------------------------------------------------------------- commands

  /** `strings.TrimPrefix`. */
  function TrimPrefix(s: string, prefix: string): (r: string)
    ensures prefix <= s ==> prefix + r == s
    ensures !(prefix <= s) ==> r == s
  {
    if prefix <= s then s[|prefix|..] else s
  }

  /** A button's data, stripped of the prefix, is its command again. */
  lemma TrimPrefixOfData(prefix: string, cmd: string)
    ensures TrimPrefix(prefix + cmd, prefix) == cmd
  {
    assert (prefix + cmd)[..|prefix|] == prefix;
    assert (prefix + cmd)[|prefix|..] == cmd;
  }

  /** `strings.Split(payload, "/")` read at `[0]` and `[1]`: the text before
      the first slash and the text between it and the next slash (or the
      end). `None` when there is no slash, where the source indexes past
      the end of the split. */
  function SplitFilter(payload: string): (r: Option<(string, string)>)
    ensures r.None? <==> '/' !in payload
    ensures r.Some? ==> '/' !in r.value.0 && '/' !in r.value.1
    ensures r.Some? ==> r.value.0 + "/" <= payload
  {
    if '/' !in payload then None
    else
      var a := UpTo(payload, '/');
      var rest := payload[|a| + 1..];
      Some((a, UpTo(rest, '/')))
  }

  /** A filter button's payload splits back into its attribute and value
      when neither contains a slash. */
  lemma SplitFilterRoundTrip(a: string, v: string)
    requires '/' !in a && '/' !in v
    ensures SplitFilter(a + "/" + v) == Some((a, v))
  {
    UpToConcat(a, '/', v);
    assert (a + "/" + v)[|a| + 1..] == v;
  }

  /** A value that itself contains a slash is cut at it: its button toggles
      the value before the slash instead. */
  lemma SplitFilterCutsValue(a: string, v: string, w: string)
    requires '/' !in a && '/' !in v
    ensures SplitFilter(a + "/" + v + "/" + w) == Some((a, v))
  {
    UpToConcat(a, '/', v + "/" + w);
    assert a + "/" + v + "/" + w == a + ['/'] + (v + "/" + w);
    assert (a + "/" + v + "/" + w)[|a| + 1..] == v + ['/'] + w;
    UpToConcat(v, '/', w);
  }

  /** The select step: a command whose first byte is a number selects the
      position `Atoi` reads from it and closes the controls. */
  function SelectStep<T>(v: View<T>, cmd: string): (r: View<T>)
    requires |cmd| > 0
    ensures IsDigit(cmd[0]) ==> r == v.(selectedItem := Atoi(cmd), controlsVisible := false)
    ensures !IsDigit(cmd[0]) ==> r == v
  {
    if LeadsWithNumber(cmd) then v.(selectedItem := Atoi(cmd), controlsVisible := false) else v
  }

  /** The switch on the whole command: paging and opening or closing the
      controls. The `next_page` guard is `activePage < Len/ipp`, not the
      guard that activates the next button. */
  function NavigateStep<T>(v: View<T>, cmd: string): (r: View<T>)
    requires v.itemsPerPage > 0
    ensures cmd == NextPageCmd ==>
      r == if v.activePage < Len(v) / v.itemsPerPage then v.(activePage := v.activePage + 1) else v
    ensures cmd == PrevPageCmd ==>
      r == if v.activePage > 0 then v.(activePage := v.activePage - 1) else v
    ensures cmd == ToggleFiltersCmd ==> r == v.(controlsVisible := !v.controlsVisible)
    ensures cmd != NextPageCmd && cmd != PrevPageCmd && cmd != ToggleFiltersCmd ==> r == v
  {
    if cmd == NextPageCmd then
      if v.activePage < Len(v) / v.itemsPerPage then v.(activePage := v.activePage + 1) else v
    else if cmd == PrevPageCmd then
      if v.activePage > 0 then v.(activePage := v.activePage - 1) else v
    else if cmd == ToggleFiltersCmd then
      v.(controlsVisible := !v.controlsVisible)
    else v
  }

  /** `#order_by#k`: toggles sorting on `k`, re-sorts the visible entries and
      clears the selection. */
  function OrderBy<T>(v: View<T>, ev: PagedList.Evaluator<T>, attribute: string): (r: View<T>)
    requires Valid(v)
    ensures Valid(r)
    ensures r == v.(ls := r.ls, selectedItem := -1)
    ensures var toggled := PagedList.ToggleSorting(v.ls, attribute);
      && r.ls.list == v.ls.list && r.ls.filters == v.ls.filters
      && r.ls.attributes == toggled.attributes && r.ls.queue == toggled.queue
      && multiset(r.ls.index) == multiset(v.ls.index)
    ensures Len(r) == Len(v)
    ensures PagedList.ComparesStrictWeak(PagedList.ToggleSorting(v.ls, attribute), ev) ==>
      forall n, m :: 0 <= n < m < |r.ls.index| ==> !PagedList.Less(r.ls, ev, m, n)
  {
    PagedList.ToggleSortingInv(v.ls, attribute);
    var toggled := PagedList.ToggleSorting(v.ls, attribute);
    PagedList.SortInvQueueKnown(toggled);
    v.(ls := PagedList.Sort(toggled, ev), selectedItem := -1)
  }

  /** `#filterby#a/v`: toggles the filter value, goes back to the first page,
      clears the selection, and rebuilds and re-sorts the visible entries.
      `None` when the payload has no slash. */
  function FilterBy<T>(v: View<T>, ev: PagedList.Evaluator<T>, payload: string): (r: Option<View<T>>)
    requires Valid(v)
    ensures r.None? <==> '/' !in payload
    ensures r.Some? ==> Valid(r.value)
    ensures r.Some? ==> r.value == v.(ls := r.value.ls, activePage := 0, selectedItem := -1)
    ensures r.Some? ==>
      var (a, val) := SplitFilter(payload).value;
      && r.value.ls.list == v.ls.list
      && r.value.ls.filters == PagedList.ToggleFilter(v.ls, a, val).filters
      && (forall i :: i in r.value.ls.index <==>
            0 <= i < |v.ls.list| && PagedList.KeepItem(r.value.ls.filters, ev, v.ls.list[i]))
    ensures r.Some? ==> NoDuplicates(r.value.ls.index)
    ensures r.Some? && PagedList.ComparesStrictWeak(v.ls, ev) ==>
      forall n, m :: 0 <= n < m < |r.value.ls.index| ==> !PagedList.Less(r.value.ls, ev, m, n)
  {
    match SplitFilter(payload)
    case None => None
    case Some((a, val)) =>
      Some(v.(ls := PagedList.Reload(PagedList.ToggleFilter(v.ls, a, val), ev), activePage := 0, selectedItem := -1))
  }

  /** `#action__#x`: with an item selected, runs `x` on it and clears the
      selection when `Execute` asks for that. */
  function RunAction<T>(v: View<T>, caller: Caller<T>, action: string): (r: View<T>)
    ensures r == v.(selectedItem := r.selectedItem)
    ensures v.selectedItem == -1 ==> r == v
    ensures v.selectedItem != -1 ==> (r.selectedItem == -1 <==> caller.execute(v.selectedItem, action))
    ensures r.selectedItem != -1 ==> r.selectedItem == v.selectedItem
  {
    if v.selectedItem != -1 && caller.execute(v.selectedItem, action) then v.(selectedItem := -1) else v
  }

  /** Whether the command is a ten-character tag followed by a non-empty payload. */
  predicate Tagged(cmd: string, tag: string) {
    |cmd| > TagLength && cmd[..TagLength] == tag
  }

  /** The tagged commands, dispatched on the first ten characters. */
  function TaggedStep<T>(v: View<T>, caller: Caller<T>, cmd: string): (r: Option<View<T>>)
    requires Valid(v)
    ensures r.None? <==> Tagged(cmd, FilterByTag) && '/' !in cmd[TagLength..]
    ensures r.Some? ==> Valid(r.value) && r.value.prefix == v.prefix && r.value.itemsPerPage == v.itemsPerPage
    ensures Tagged(cmd, OrderByTag) ==> r == Some(OrderBy(v, caller.ev, cmd[TagLength..]))
    ensures Tagged(cmd, FilterByTag) ==> r == FilterBy(v, caller.ev, cmd[TagLength..])
    ensures Tagged(cmd, ActionTag) ==> r == Some(RunAction(v, caller, cmd[TagLength..]))
    ensures !Tagged(cmd, OrderByTag) && !Tagged(cmd, FilterByTag) && !Tagged(cmd, ActionTag) ==> r == Some(v)
  {
    if |cmd| > TagLength then
      var tag, payload := cmd[..TagLength], cmd[TagLength..];
      if tag == OrderByTag then Some(OrderBy(v, caller.ev, payload))
      else if tag == FilterByTag then FilterBy(v, caller.ev, payload)
      else if tag == ActionTag then Some(RunAction(v, caller, payload))
      else Some(v)
    else Some(v)
  }

  /** The outcome of a callback: the new state and the bot call it makes, or
      a runtime panic (an empty command, or a filter payload without a slash). */
  datatype Outcome<T> = Reply(p: Paginator<T>, effect: Effect) | Crash

  /** The view a command leads to, before the refresh. */
  function Step<T>(v: View<T>, caller: Caller<T>, cmd: string): (r: Option<View<T>>)
    requires Valid(v) && |cmd| > 0
    ensures r.None? <==> Tagged(cmd, FilterByTag) && '/' !in cmd[TagLength..]
    ensures r.Some? ==> Valid(r.value) && r.value.prefix == v.prefix && r.value.itemsPerPage == v.itemsPerPage
  {
    TaggedStep(NavigateStep(SelectStep(v, cmd), cmd), caller, cmd)
  }

  /** The view a callback's data leads to: the prefix stripped, then the
      select step, the switch and the tagged commands in that order. `None`
      where the source panics. */
  function Dispatch<T>(v: View<T>, caller: Caller<T>, data: string): (r: Option<View<T>>)
    requires Valid(v)
    ensures var cmd := TrimPrefix(data, v.prefix);
      r.None? <==> |cmd| == 0 || (Tagged(cmd, FilterByTag) && '/' !in cmd[TagLength..])
    ensures r.Some? ==> Valid(r.value) && r.value.prefix == v.prefix && r.value.itemsPerPage == v.itemsPerPage
  {
    var cmd := TrimPrefix(data, v.prefix);
    if |cmd| == 0 then None else Step(v, caller, cmd)
  }

  /** `callbackHandler`: dispatches the data, then refreshes the message. */
  function HandleCallback<T>(p: Paginator<T>, caller: Caller<T>, data: string): (r: Outcome<T>)
    requires Valid(p.view)
    ensures r.Crash? <==> Dispatch(p.view, caller, data).None?
    ensures r.Reply? ==> r.p.view == Dispatch(p.view, caller, data).value
    ensures r.Reply? ==> r.p.text == BuildText(r.p.view, caller) && r.p.keyboard == BuildKeyboard(r.p.view, caller)
    ensures r.Reply? ==> (r.effect.NoCall? <==> r.p.text == p.text && r.p.keyboard == p.keyboard)
  {
    match Dispatch(p.view, caller, data)
    case None => Crash
    case Some(v) =>
      var (q, effect) := Refresh(Paginator(v, p.text, p.keyboard), caller);
      Reply(q, effect)
  }
}

=== FILE: paginator_laws.dfy ===
/** What pressing each button of common/paginator/paginator.go does, and
    what the keyboard `buildKeyboard` lays out promises: every button routes
    back to the paginator's prefix, the controls and the actions appear
    exactly when they should, and paging never leaves the list behind. */
module PaginatorLaws {
  import opened Optional
  import opened Seqs
  import opened Decimal
  import PagedList
  import opened Pagination

  // ---------------------------------------------------------------- keyboard

  /** Every button of `rows` carries `prefix`. */
  ghost predicate Routed(prefix: string, rows: Keyboard) {
    forall row, b :: row in rows && b in row ==> prefix <= b.data
  }

  /** No button of `rows` is a sort or filter control. */
  ghost predicate NoControls(rows: Keyboard) {
    forall row, b :: row in rows && b in row ==> !b.caption.SortLabel? && !b.caption.FilterLabel?
  }

  /** No button of `rows` is an action. */
  ghost predicate NoActions(rows: Keyboard) {
    forall row, b :: row in rows && b in row ==> !b.caption.ActionLabel?
  }

  lemma RowsConcat(prefix: string, a: Keyboard, b: Keyboard)
    ensures Routed(prefix, a) && Routed(prefix, b) ==> Routed(prefix, a + b)
    ensures NoControls(a) && NoControls(b) ==> NoControls(a + b)
    ensures NoActions(a) && NoActions(b) ==> NoActions(a + b)
  {
  }

  /** The item row: prefixed numbers, neither controls nor actions. */
  lemma ItemRowsPlain<T>(v: View<T>)
    requires Valid(v)
    ensures var items := ItemRow(v);
      var rows := if |items| > 0 then [items] else [];
      Routed(v.prefix, rows) && NoControls(rows) && NoActions(rows)
  {
  }

  /** The navigation row: prefixed arrows and stubs. */
  lemma NavRowPlain<T>(v: View<T>)
    requires v.itemsPerPage > 0
    ensures Routed(v.prefix, [NavRow(v)]) && NoControls([NavRow(v)]) && NoActions([NavRow(v)])
  {
  }

  /** The control rows: prefixed sort and filter buttons, no actions. */
  lemma ControlRowsPlain<T>(v: View<T>)
    requires Valid(v)
    ensures Routed(v.prefix, ControlRows(v)) && NoActions(ControlRows(v))
  {
    if v.controlsVisible {
      var sorts := SortRow(v);
      var filters := FilterRows(v, |v.ls.filters.keys|);
      forall row, b | row in filters && b in row ensures v.prefix <= b.data && !b.caption.ActionLabel? {
        FlattenMember(filters, b);
      }
      RowsConcat(v.prefix, if |sorts| > 0 then [sorts] else [], filters);
    }
  }

  /** The action rows: prefixed actions, no controls. */
  lemma ActionRowsPlain<T>(v: View<T>, caller: Caller<T>)
    requires Valid(v)
    ensures Routed(v.prefix, ActionRows(v, caller)) && NoControls(ActionRows(v, caller))
  {
    var actions := ActionRows(v, caller);
    forall row, b | row in actions && b in row
      ensures v.prefix <= b.data && !b.caption.SortLabel? && !b.caption.FilterLabel?
    {
      FlattenMember(actions, b);
    }
  }

  /** The keyboard is its four parts in order. */
  lemma KeyboardParts<T>(v: View<T>, caller: Caller<T>)
    requires Valid(v)
    ensures var items := ItemRow(v);
      BuildKeyboard(v, caller) == (if |items| > 0 then [items] else []) + ControlRows(v) + [NavRow(v)] + ActionRows(v, caller)
  {
  }

  /** Every button carries the paginator's prefix, so the handler registered
      for that prefix receives every press. */
  lemma KeyboardRouted<T>(v: View<T>, caller: Caller<T>)
    requires Valid(v)
    ensures forall row, b :: row in BuildKeyboard(v, caller) && b in row ==> v.prefix <= b.data
  {
    var items := ItemRow(v);
    var head := if |items| > 0 then [items] else [];
    KeyboardParts(v, caller);
    ItemRowsPlain(v);
    ControlRowsPlain(v);
    NavRowPlain(v);
    ActionRowsPlain(v, caller);
    RowsConcat(v.prefix, head, ControlRows(v));
    RowsConcat(v.prefix, head + ControlRows(v), [NavRow(v)]);
    RowsConcat(v.prefix, head + ControlRows(v) + [NavRow(v)], ActionRows(v, caller));
    assert Routed(v.prefix, BuildKeyboard(v, caller));
  }

  /** With the controls closed, no sort or filter button is shown. */
  lemma ControlsHidden<T>(v: View<T>, caller: Caller<T>)
    requires Valid(v) && !v.controlsVisible
    ensures forall row, b :: row in BuildKeyboard(v, caller) && b in row ==>
      !b.caption.SortLabel? && !b.caption.FilterLabel?
  {
    var items := ItemRow(v);
    var head := if |items| > 0 then [items] else [];
    KeyboardParts(v, caller);
    ItemRowsPlain(v);
    NavRowPlain(v);
    ActionRowsPlain(v, caller);
    assert ControlRows(v) == [];
    RowsConcat(v.prefix, head, ControlRows(v));
    RowsConcat(v.prefix, head + ControlRows(v), [NavRow(v)]);
    RowsConcat(v.prefix, head + ControlRows(v) + [NavRow(v)], ActionRows(v, caller));
    assert NoControls(BuildKeyboard(v, caller));
  }

  /** With the controls open, the configured sort attributes have their row,
      every known filter value has its button, and no action is offered. */
  lemma ControlsShown<T>(v: View<T>, caller: Caller<T>)
    requires Valid(v) && v.controlsVisible
    ensures var kb := BuildKeyboard(v, caller);
      && (|v.ls.attributes.keys| > 0 ==> SortRow(v) in kb)
      && (forall b :: b in FilterButtons(v, |v.ls.filters.keys|) ==> exists row :: row in kb && b in row)
      && (forall row, b :: row in kb && b in row ==> !b.caption.ActionLabel?)
  {
    var items := ItemRow(v);
    var head := if |items| > 0 then [items] else [];
    var kb := BuildKeyboard(v, caller);
    KeyboardParts(v, caller);
    var filters := FilterRows(v, |v.ls.filters.keys|);
    var sorts := SortRow(v);
    assert ControlRows(v) == (if |sorts| > 0 then [sorts] else []) + filters;
    forall b | b in FilterButtons(v, |v.ls.filters.keys|) ensures exists row :: row in kb && b in row {
      FlattenMember(filters, b);
      var row :| row in filters && b in row;
      assert row in ControlRows(v);
    }
    ItemRowsPlain(v);
    ControlRowsPlain(v);
    NavRowPlain(v);
    assert ActionRows(v, caller) == [];
    RowsConcat(v.prefix, head, ControlRows(v));
    RowsConcat(v.prefix, head + ControlRows(v), [NavRow(v)]);
    RowsConcat(v.prefix, head + ControlRows(v) + [NavRow(v)], ActionRows(v, caller));
    assert NoActions(kb);
  }

  /** Action buttons appear only when an item of the active page is selected
      and the controls are closed. */
  lemma ActionsOnlyForSelection<T>(v: View<T>, caller: Caller<T>)
    requires Valid(v) && !ShowsActions(v)
    ensures forall row, b :: row in BuildKeyboard(v, caller) && b in row ==> !b.caption.ActionLabel?
  {
    var items := ItemRow(v);
    var head := if |items| > 0 then [items] else [];
    KeyboardParts(v, caller);
    ItemRowsPlain(v);
    ControlRowsPlain(v);
    NavRowPlain(v);
    assert ActionRows(v, caller) == [];
    RowsConcat(v.prefix, head, ControlRows(v));
    RowsConcat(v.prefix, head + ControlRows(v), [NavRow(v)]);
    RowsConcat(v.prefix, head + ControlRows(v) + [NavRow(v)], ActionRows(v, caller));
    assert NoActions(BuildKeyboard(v, caller));
  }

  /** ...and then every action of the selected item has its button. */
  lemma ActionsOfSelection<T>(v: View<T>, caller: Caller<T>)
    requires Valid(v) && ShowsActions(v)
    ensures 0 <= v.selectedItem < Len(v)
    ensures forall action :: action in caller.actions(PagedList.Item(v.ls, v.selectedItem)) ==>
      exists row :: row in BuildKeyboard(v, caller) && Button(ActionLabel(action), v.prefix + ActionCommand(action)) in row
  {
    var kb := BuildKeyboard(v, caller);
    KeyboardParts(v, caller);
    var actions := ActionRows(v, caller);
    var acts := caller.actions(PagedList.Item(v.ls, v.selectedItem));
    forall action | action in acts
      ensures exists row :: row in kb && Button(ActionLabel(action), v.prefix + ActionCommand(action)) in row
    {
      var k :| 0 <= k < |acts| && acts[k] == action;
      var b := Button(ActionLabel(action), v.prefix + ActionCommand(action));
      assert ActionButtons(v, acts)[k] == b;
      FlattenMember(actions, b);
      var row :| row in actions && b in row;
      assert row in kb;
    }
  }

  // ---------------------------------------------------------------- arithmetic

  lemma MulMono(a: int, b: int, n: int)
    requires a <= b && n >= 0
    ensures a * n <= b * n
  {
    assert b * n - a * n == (b - a) * n;
  }

  lemma MulCancel(a: int, b: int, n: int)
    requires n > 0 && a * n < b * n
    ensures a < b
  {
    assert (b - a) * n > 0;
  }

  /** `q * n <= x` for every `q` up to `x / n`. */
  lemma MulBelow(q: int, n: int, x: int)
    requires n > 0 && q <= x / n
    ensures q * n <= x
  {
    MulMono(q, x / n, n);
  }

  /** Division by a positive number is monotone. */
  lemma DivMono(x: int, y: int, n: int)
    requires n > 0 && x <= y
    ensures x / n <= y / n
  {
    var q := x / n;
    assert q * n <= x;
    assert y - q * n >= 0;
    assert y < y / n * n + n;
    MulCancel(q, y / n + 1, n);
    assert (y / n + 1) * n == y / n * n + n;
  }

  /** `x / n == q` when `x` lies in `q`'s block of width `n`. */
  lemma DivUnique(x: int, n: int, q: int)
    requires n > 0 && q * n <= x < q * n + n
    ensures x / n == q
  {
    var d := x / n;
    assert d * n <= x < d * n + n;
    assert (d + 1) * n == d * n + n;
    assert (q + 1) * n == q * n + n;
    MulCancel(q, d + 1, n);
    MulCancel(d, q + 1, n);
  }

  // ---------------------------------------------------------------- presses

  /** A command led by a digit is only a selection: not a switch word, not a tag. */
  lemma DigitLedUntagged(cmd: string)
    requires |cmd| > 0 && IsDigit(cmd[0])
    ensures cmd != NextPageCmd && cmd != PrevPageCmd && cmd != ToggleFiltersCmd
    ensures !Tagged(cmd, OrderByTag) && !Tagged(cmd, FilterByTag) && !Tagged(cmd, ActionTag)
  {
    if |cmd| > TagLength {
      assert cmd[..TagLength][0] == cmd[0];
    }
  }

  /** A tag with a non-empty payload is read as that tag and nothing else. */
  lemma TaggedCommand(tag: string, payload: string)
    requires tag == OrderByTag || tag == FilterByTag || tag == ActionTag
    requires |payload| > 0
    ensures var cmd := tag + payload;
      && |cmd| > 0 && !IsDigit(cmd[0])
      && cmd != NextPageCmd && cmd != PrevPageCmd && cmd != ToggleFiltersCmd
      && Tagged(cmd, tag) && cmd[TagLength..] == payload
  {
    var cmd := tag + payload;
    assert cmd[..TagLength] == tag;
    assert cmd[TagLength..] == payload;
    assert cmd[0] == '#';
  }

  /** Pressing item `i` selects it and closes the controls. */
  lemma PressItem<T>(v: View<T>, caller: Caller<T>, i: nat)
    requires Valid(v) && i <= MaxInt
    ensures Dispatch(v, caller, v.prefix + SelectCommand(i)) == Some(v.(selectedItem := i, controlsVisible := false))
  {
    var cmd := SelectCommand(i);
    TrimPrefixOfData(v.prefix, cmd);
    SelectionRoundTrip(i);
    DigitLedUntagged(cmd);
  }

  /** Pressing an active "next" arrow moves one page on, and that page is not empty. */
  lemma PressNext<T>(v: View<T>, caller: Caller<T>)
    requires Valid(v)
    requires NavRow(v)[2].caption == NextArrow
    ensures Dispatch(v, caller, v.prefix + NextPageCmd) == Some(v.(activePage := v.activePage + 1))
    ensures var next := v.(activePage := v.activePage + 1);
      PageBounds(next).0 < PageBounds(next).1
  {
    TrimPrefixOfData(v.prefix, NextPageCmd);
    NextArrowBounds(v.activePage, v.itemsPerPage, Len(v));
  }

  /** The arithmetic behind `PressNext`: below `(len-1)/n` the source's guard
      `a < len/n` holds and page `a + 1` starts inside the list. */
  lemma NextArrowBounds(a: int, n: int, len: int)
    requires n > 0 && a >= 0 && a < GoDiv(len - 1, n)
    ensures a < len / n && (a + 1) * n < len
  {
    assert len - 1 >= 0;
    MulBelow(a + 1, n, len - 1);
    MulBelow((len - 1) / n, n, len - 1);
    assert (len - 1) / n <= len / n by {
      DivMono(len - 1, len, n);
    }
  }

  /** Pressing an active "previous" arrow moves one page back. */
  lemma PressPrev<T>(v: View<T>, caller: Caller<T>)
    requires Valid(v)
    requires NavRow(v)[0].caption == PrevArrow
    ensures Dispatch(v, caller, v.prefix + PrevPageCmd) == Some(v.(activePage := v.activePage - 1))
  {
    TrimPrefixOfData(v.prefix, PrevPageCmd);
  }

  /** Pressing the middle navigation button opens or closes the controls. */
  lemma PressToggle<T>(v: View<T>, caller: Caller<T>)
    requires Valid(v)
    ensures Dispatch(v, caller, v.prefix + ToggleFiltersCmd) == Some(v.(controlsVisible := !v.controlsVisible))
  {
    TrimPrefixOfData(v.prefix, ToggleFiltersCmd);
    assert ToggleFiltersCmd[..TagLength][0] == 't';
  }

  /** Pressing a stub changes nothing and, when the message is up to date,
      makes no bot call. */
  lemma PressStub<T>(v: View<T>, caller: Caller<T>)
    requires Valid(v)
    ensures var p := Paginator(v, BuildText(v, caller), BuildKeyboard(v, caller));
      HandleCallback(p, caller, v.prefix + StubCmd) == Reply(p, NoCall)
  {
    TrimPrefixOfData(v.prefix, StubCmd);
  }

  /** Pressing a sort button toggles that attribute's order, re-sorts and
      clears the selection. */
  lemma PressSort<T>(v: View<T>, caller: Caller<T>, attribute: string)
    requires Valid(v) && |attribute| > 0
    ensures Dispatch(v, caller, v.prefix + OrderByCommand(attribute)) == Some(OrderBy(v, caller.ev, attribute))
  {
    TrimPrefixOfData(v.prefix, OrderByCommand(attribute));
    TaggedCommand(OrderByTag, attribute);
  }

  /** A sort button for an attribute with an empty name carries the bare
      tag, which the handler ignores. */
  lemma PressSortUnnamed<T>(v: View<T>, caller: Caller<T>)
    requires Valid(v)
    ensures var p := Paginator(v, BuildText(v, caller), BuildKeyboard(v, caller));
      HandleCallback(p, caller, v.prefix + OrderByCommand("")) == Reply(p, NoCall)
  {
    TrimPrefixOfData(v.prefix, OrderByCommand(""));
    assert OrderByCommand("") == OrderByTag;
    assert !Tagged(OrderByTag, OrderByTag) && !Tagged(OrderByTag, FilterByTag) && !Tagged(OrderByTag, ActionTag);
    assert Dispatch(v, caller, v.prefix + OrderByCommand("")) == Some(v);
  }

  /** A sort press that brings an item the caller renders differently to a
      position of the page edits the message text. */
  lemma PressSortEditsText<T>(v: View<T>, caller: Caller<T>, attribute: string, i: int)
    requires Valid(v) && |attribute| > 0
    requires PageBounds(v).0 <= i < PageBounds(v).1
    requires var w := OrderBy(v, caller.ev, attribute);
      caller.itemString(PagedList.Item(v.ls, i)) != caller.itemString(PagedList.Item(w.ls, i))
    ensures var p := Paginator(v, BuildText(v, caller), BuildKeyboard(v, caller));
      var r := HandleCallback(p, caller, v.prefix + OrderByCommand(attribute));
      r.Reply? && r.effect.EditText? && r.p.view == OrderBy(v, caller.ev, attribute)
  {
    var w := OrderBy(v, caller.ev, attribute);
    PressSort(v, caller, attribute);
    TextFollowsItems(v, w, caller, i, BuildKeyboard(v, caller));
  }

  /** Pressing a filter button flips that value, returns to the first page,
      clears the selection and shows exactly the items the new filters keep. */
  lemma PressFilter<T>(v: View<T>, caller: Caller<T>, a: string, value: string)
    requires Valid(v)
    requires '/' !in a && '/' !in value
    ensures var r := Dispatch(v, caller, v.prefix + FilterCommand(a, value));
      && r.Some?
      && r.value.activePage == 0 && r.value.selectedItem == -1
      && r.value.ls.filters == PagedList.ToggleFilter(v.ls, a, value).filters
      && forall i :: i in r.value.ls.index <==>
           0 <= i < |v.ls.list| && PagedList.KeepItem(r.value.ls.filters, caller.ev, v.ls.list[i])
  {
    var payload := a + "/" + value;
    assert FilterCommand(a, value) == FilterByTag + payload;
    TrimPrefixOfData(v.prefix, FilterCommand(a, value));
    TaggedCommand(FilterByTag, payload);
    SplitFilterRoundTrip(a, value);
  }

  /** Pressing an action button runs it on the selected item. */
  lemma PressAction<T>(v: View<T>, caller: Caller<T>, action: string)
    requires Valid(v) && |action| > 0
    ensures Dispatch(v, caller, v.prefix + ActionCommand(action)) == Some(RunAction(v, caller, action))
  {
    TrimPrefixOfData(v.prefix, ActionCommand(action));
    TaggedCommand(ActionTag, action);
  }

  /** The `next_page` command checks `activePage < Len/ipp`, while the next
      arrow checks `activePage < (Len-1)/ipp`. When the last page is exactly
      full, the arrow is a stub, yet the command itself (from an older
      message, whose buttons route here too) still moves to an empty page. */
  lemma NextPagePastFullPage<T>(v: View<T>, caller: Caller<T>)
    requires Valid(v)
    requires Len(v) == (v.activePage + 1) * v.itemsPerPage
    ensures NavRow(v)[2].caption == Stub
    ensures var r := Dispatch(v, caller, v.prefix + NextPageCmd);
      && r == Some(v.(activePage := v.activePage + 1))
      && Header(r.value) == EmptyList
  {
    TrimPrefixOfData(v.prefix, NextPageCmd);
    var n := v.itemsPerPage;
    assert (v.activePage + 1) * n == v.activePage * n + n;
    DivUnique(Len(v), n, v.activePage + 1);
    DivUnique(Len(v) - 1, n, v.activePage);
  }

  /** The page start stays within the list: every callback keeps
      `activePage * itemsPerPage <= Len`. */
  ghost predicate PageInRange<T>(v: View<T>) {
    v.activePage * v.itemsPerPage <= Len(v)
  }

  lemma {:induction false} CallbacksKeepPageInRange<T>(v: View<T>, caller: Caller<T>, data: string)
    requires Valid(v) && PageInRange(v)
    ensures var r := Dispatch(v, caller, data);
      r.Some? ==> PageInRange(r.value)
  {
    var cmd := TrimPrefix(data, v.prefix);
    if |cmd| > 0 {
      var v1 := SelectStep(v, cmd);
      NavigateKeepsPageInRange(v1, cmd);
      TaggedKeepsPageInRange(NavigateStep(v1, cmd), caller, cmd);
    }
  }

  /** Page arrows and the controls toggle keep the page in range. */
  lemma NavigateKeepsPageInRange<T>(v: View<T>, cmd: string)
    requires Valid(v) && PageInRange(v)
    ensures PageInRange(NavigateStep(v, cmd))
  {
    if cmd == NextPageCmd && v.activePage < Len(v) / v.itemsPerPage {
      MulBelow(v.activePage + 1, v.itemsPerPage, Len(v));
    }
  }

  /** Sorting, filtering and actions keep the page in range. */
  lemma TaggedKeepsPageInRange<T>(v: View<T>, caller: Caller<T>, cmd: string)
    requires Valid(v) && PageInRange(v)
    ensures var r := TaggedStep(v, caller, cmd);
      r.Some? ==> PageInRange(r.value)
  {
  }
}

=== FILE: seqs.dfy ===
/** Sequence helpers shared by the model: Go's `slices.Index` / `slices.Delete`,
    and the row wrapping used when laying out keyboard buttons. */
module Seqs {

  ghost predicate NoDuplicates<X>(s: seq<X>) {
    forall i, j :: 0 <= i < j < |s| ==> s[i] != s[j]
  }

  ghost predicate StrictlyIncreasing(s: seq<int>) {
    forall i, j :: 0 <= i < j < |s| ==> s[i] < s[j]
  }

  /** Position of the first occurrence of `x` in `s`, or -1 (Go's `slices.Index`). */
  function IndexOf<X(==)>(s: seq<X>, x: X): (r: int)
    ensures -1 <= r < |s|
    ensures r == -1 <==> x !in s
    ensures 0 <= r ==> s[r] == x && x !in s[..r]
  {
    if |s| == 0 then -1
    else if s[0] == x then 0
    else
      var k := IndexOf(s[1..], x);
      if k == -1 then -1
      else
        assert s[..k + 1] == [s[0]] + s[1..][..k];
        k + 1
  }

  /** `s` without the element at position `i` (Go's `slices.Delete(s, i, i+1)`). */
  function RemoveAt<X>(s: seq<X>, i: int): (r: seq<X>)
    requires 0 <= i < |s|
    ensures |r| == |s| - 1
    ensures forall k :: 0 <= k < i ==> r[k] == s[k]
    ensures forall k :: i <= k < |r| ==> r[k] == s[k + 1]
    ensures multiset(r) + multiset{s[i]} == multiset(s)
  {
    assert s == s[..i] + [s[i]] + s[i + 1..];
    s[..i] + s[i + 1..]
  }

  /** Removing the first occurrence of `x` from a duplicate-free sequence
      leaves a duplicate-free sequence that holds every other element. */
  lemma RemoveFirstOccurrence<X>(s: seq<X>, x: X)
    requires NoDuplicates(s) && x in s
    ensures var r := RemoveAt(s, IndexOf(s, x));
      NoDuplicates(r) && forall y :: y in r <==> y in s && y != x
  {
    var i := IndexOf(s, x);
    var r := RemoveAt(s, i);
    forall y
      ensures y in r <==> y in s && y != x
    {
      if y in r {
        var k :| 0 <= k < |r| && r[k] == y;
        if k < i { assert s[k] == y; } else { assert s[k + 1] == y; }
      }
      if y in s && y != x {
        var k :| 0 <= k < |s| && s[k] == y;
        if k < i { assert r[k] == y; } else { assert k != i; assert r[k - 1] == y; }
      }
    }
  }

  /** The part of `s` before the first `c`, or all of `s` when there is none. */
  function UpTo<X(==)>(s: seq<X>, c: X): (r: seq<X>)
    ensures c !in r
    ensures c !in s ==> r == s
    ensures c in s ==> r + [c] <= s
  {
    if |s| == 0 then []
    else if s[0] == c then []
    else
      var r := [s[0]] + UpTo(s[1..], c);
      assert c in s ==> c in s[1..];
      r
  }

  /** Cutting at the first `c` recovers the text written before it. */
  lemma {:induction false} UpToConcat<X>(a: seq<X>, c: X, b: seq<X>)
    requires c !in a
    ensures UpTo(a + [c] + b, c) == a
    decreases |a|
  {
    if |a| > 0 {
      assert (a + [c] + b)[1..] == a[1..] + [c] + b;
      UpToConcat(a[1..], c, b);
    }
  }

  /** All rows laid end to end. */
  function Flatten<X>(rows: seq<seq<X>>): seq<X> {
    if |rows| == 0 then [] else rows[0] + Flatten(rows[1..])
  }

  lemma {:induction false} FlattenConcat<X>(a: seq<seq<X>>, b: seq<seq<X>>)
    ensures Flatten(a + b) == Flatten(a) + Flatten(b)
    decreases |a|
  {
    if |a| == 0 {
      assert a + b == b;
    } else {
      assert (a + b)[0] == a[0];
      assert (a + b)[1..] == a[1..] + b;
      FlattenConcat(a[1..], b);
    }
  }

  /** An element is in the flattened rows iff it is in one of the rows. */
  lemma {:induction false} FlattenMember<X>(rows: seq<seq<X>>, x: X)
    ensures x in Flatten(rows) <==> exists row :: row in rows && x in row
    decreases |rows|
  {
    if |rows| > 0 {
      FlattenMember(rows[1..], x);
      assert forall row :: row in rows <==> row == rows[0] || row in rows[1..];
    }
  }

  /** Cuts `s` into rows of `width` elements; only the last row may be shorter
      and no row is empty (the `(j+1) % width == 0` wrapping of the keyboard rows). */
  function Chunk<X>(s: seq<X>, width: nat): (rows: seq<seq<X>>)
    requires width > 0
    ensures Flatten(rows) == s
    ensures forall k :: 0 <= k < |rows| ==> 0 < |rows[k]| <= width
    ensures forall k :: 0 <= k < |rows| - 1 ==> |rows[k]| == width
    ensures |s| == 0 <==> |rows| == 0
    decreases |s|
  {
    if |s| == 0 then []
    else if |s| <= width then [s]
    else
      var rest := Chunk(s[width..], width);
      assert s[..width] + Flatten(rest) == s;
      [s[..width]] + rest
  }

  /** Without duplicates, every element occurs at most once. */
  lemma {:induction false} DistinctCountsAtMostOne<X>(s: seq<X>)
    requires NoDuplicates(s)
    ensures forall x :: multiset(s)[x] <= 1
  {
    if |s| > 0 {
      var t := s[1..];
      assert s == [s[0]] + t;
      assert forall i :: 0 <= i < |t| ==> t[i] == s[i + 1];
      assert NoDuplicates(t) by {
        forall i, j | 0 <= i < j < |t| ensures t[i] != t[j] {
          assert s[i + 1] != s[j + 1];
        }
      }
      assert s[0] !in t by {
        forall i | 0 <= i < |t| ensures t[i] != s[0] {
          assert s[0] != s[i + 1];
        }
      }
      DistinctCountsAtMostOne(t);
      assert multiset(s) == multiset{s[0]} + multiset(t);
    }
  }

  /** When every element occurs at most once, there are no duplicates. */
  lemma {:induction false} AtMostOneDistinct<X>(s: seq<X>)
    requires forall x :: multiset(s)[x] <= 1
    ensures NoDuplicates(s)
  {
    if |s| > 0 {
      var t := s[1..];
      assert s == [s[0]] + t;
      assert multiset(s) == multiset{s[0]} + multiset(t);
      assert multiset(s)[s[0]] <= 1;
      assert multiset(t)[s[0]] == 0;
      forall x ensures multiset(t)[x] <= 1 {
        assert multiset(s)[x] <= 1;
      }
      AtMostOneDistinct(t);
      forall i, j | 0 <= i < j < |s| ensures s[i] != s[j] {
        assert s[j] == t[j - 1];
        assert s[j] in t;
        if i > 0 {
          assert s[i] == t[i - 1];
        }
      }
    }
  }

  /** A permutation of a sequence without duplicates has none either. */
  lemma DistinctPermutation<X>(a: seq<X>, b: seq<X>)
    requires NoDuplicates(a) && multiset(a) == multiset(b)
    ensures NoDuplicates(b)
  {
    DistinctCountsAtMostOne(a);
    AtMostOneDistinct(b);
  }
}

=== FILE: sorting.dfy ===
/** The header-indexed sort state of common/paginator/sorting.go: the headers
    in display order, and `multyOrder`, the header positions in the order
    they were switched on. */
module Sorting {
  import opened Optional
  import opened Seqs
  import opened SortOrder

  datatype SortHeader = SortHeader(name: string, shortName: string, order: int8)

  datatype SortingState = SortingState(headers: seq<SortHeader>, multyOrder: seq<int>)

  /** A header position is queued exactly when its order is not "unsorted",
      and at most once. */
  ghost predicate Inv(s: SortingState) {
    && NoDuplicates(s.multyOrder)
    && forall k :: k in s.multyOrder <==> 0 <= k < |s.headers| && s.headers[k].order != Unsorted
  }

  /** `Setup`: keeps the headers and queues the positions whose order is set,
      in ascending header order. */
  function Setup(headers: seq<SortHeader>): (s: SortingState)
    ensures s.headers == headers
    ensures Inv(s)
    ensures forall i, j :: 0 <= i < j < |s.multyOrder| ==> s.multyOrder[i] < s.multyOrder[j]
  {
    SortingState(headers, NonZeroPositions(seq(|headers|, k requires 0 <= k < |headers| => headers[k].order)))
  }

  /** `GetHeader`: the first header with that name and its position, or
      `(nil, -1)`. */
  function GetHeader(s: SortingState, attributeKey: string): (r: (Option<SortHeader>, int))
    ensures r.1 == -1 <==> forall k :: 0 <= k < |s.headers| ==> s.headers[k].name != attributeKey
    ensures r.1 == -1 ==> r.0 == None
    ensures r.1 != -1 ==>
      && 0 <= r.1 < |s.headers| && r.0 == Some(s.headers[r.1])
      && s.headers[r.1].name == attributeKey
      && forall k :: 0 <= k < r.1 ==> s.headers[k].name != attributeKey
  {
    FindFrom(s.headers, attributeKey, 0)
  }

  function FindFrom(headers: seq<SortHeader>, name: string, from: nat): (r: (Option<SortHeader>, int))
    requires from <= |headers|
    requires forall k :: 0 <= k < from ==> headers[k].name != name
    ensures r.1 == -1 <==> forall k :: 0 <= k < |headers| ==> headers[k].name != name
    ensures r.1 == -1 ==> r.0 == None
    ensures r.1 != -1 ==>
      && from <= r.1 < |headers| && r.0 == Some(headers[r.1])
      && headers[r.1].name == name && forall k :: 0 <= k < r.1 ==> headers[k].name != name
    decreases |headers| - from
  {
    if from == |headers| then (None, -1)
    else if headers[from].name == name then (Some(headers[from]), from)
    else FindFrom(headers, name, from + 1)
  }

  /** `ToggleKey` is defined when the key names a header (otherwise Go
      dereferences nil) and, when leaving "ascending", that header is queued
      (otherwise `slices.Delete` is handed -1). */
  ghost predicate CanToggle(s: SortingState, attributeKey: string) {
    var i := GetHeader(s, attributeKey).1;
    0 <= i && (s.headers[i].order == Ascending ==> i in s.multyOrder)
  }

  /** `ToggleKey`: advances the first matching header's order around the
      cycle, queueing it on 0 -> 1 and dequeueing it on 2 -> 0. */
  function ToggleKey(s: SortingState, attributeKey: string): (r: SortingState)
    requires CanToggle(s, attributeKey)
    ensures var i := GetHeader(s, attributeKey).1;
      && |r.headers| == |s.headers|
      && r.headers[i] == s.headers[i].(order := NextOrder(s.headers[i].order))
      && (forall k :: 0 <= k < |s.headers| && k != i ==> r.headers[k] == s.headers[k])
      && (s.headers[i].order == Unsorted ==> r.multyOrder == s.multyOrder + [i])
      && (s.headers[i].order == Ascending ==> r.multyOrder == RemoveAt(s.multyOrder, IndexOf(s.multyOrder, i)))
      && (s.headers[i].order != Unsorted && s.headers[i].order != Ascending ==> r.multyOrder == s.multyOrder)
    ensures Inv(s) ==> Inv(r)
  {
    var i := GetHeader(s, attributeKey).1;
    var h := s.headers[i];
    var headers := s.headers[i := h.(order := NextOrder(h.order))];
    if h.order == Unsorted then
      SortingState(headers, s.multyOrder + [i])
    else if h.order == Descending then
      SortingState(headers, s.multyOrder)
    else if h.order == Ascending then
      var r := SortingState(headers, RemoveAt(s.multyOrder, IndexOf(s.multyOrder, i)));
      assert Inv(s) ==> Inv(r) by {
        if Inv(s) {
          RemoveFirstOccurrence(s.multyOrder, i);
        }
      }
      r
    else
      s
  }

  /** Three toggles of one key restore its order and every other header. From
      "unsorted" the queue is restored exactly; from "descending" or
      "ascending" the key is queued again, but now at the end. */
  lemma {:induction false} ThreeToggles(s: SortingState, attributeKey: string)
    requires Inv(s) && CanToggle(s, attributeKey)
    requires IsDirection(s.headers[GetHeader(s, attributeKey).1].order)
    ensures var i := GetHeader(s, attributeKey).1;
      var s1 := ToggleKey(s, attributeKey);
      CanToggle(s1, attributeKey) &&
      var s2 := ToggleKey(s1, attributeKey);
      CanToggle(s2, attributeKey) &&
      var s3 := ToggleKey(s2, attributeKey);
      && s3.headers == s.headers
      && (s.headers[i].order == Unsorted ==> s3.multyOrder == s.multyOrder)
      && (s.headers[i].order != Unsorted ==>
            s3.multyOrder == RemoveAt(s.multyOrder, IndexOf(s.multyOrder, i)) + [i])
  {
    var i := GetHeader(s, attributeKey).1;
    var s1 := ToggleKey(s, attributeKey);
    SameNamesSameHeader(s, s1, attributeKey);
    var s2 := ToggleKey(s1, attributeKey);
    SameNamesSameHeader(s1, s2, attributeKey);
    var s3 := ToggleKey(s2, attributeKey);
    SameNamesSameHeader(s2, s3, attributeKey);
    assert s3.headers == s.headers;
    if s.headers[i].order == Unsorted {
      assert s1.multyOrder == s.multyOrder + [i];
      assert IndexOf(s1.multyOrder, i) == |s.multyOrder|;
    } else if s.headers[i].order == Descending {
      assert s2.multyOrder == RemoveAt(s.multyOrder, IndexOf(s.multyOrder, i));
    }
  }

  /** Toggling changes orders only, so lookups by name find the same position. */
  lemma SameNamesSameHeader(s: SortingState, r: SortingState, attributeKey: string)
    requires |r.headers| == |s.headers|
    requires forall k :: 0 <= k < |s.headers| ==> r.headers[k].name == s.headers[k].name
    ensures GetHeader(r, attributeKey).1 == GetHeader(s, attributeKey).1
  {
  }

  /** Every queued position names a header (implied by `Inv`). */
  predicate QueueInRange(s: SortingState) {
    forall n :: 0 <= n < |s.multyOrder| ==> 0 <= s.multyOrder[n] < |s.headers|
  }

  lemma InvQueueInRange(s: SortingState)
    requires Inv(s)
    ensures QueueInRange(s)
  {
    assert forall n :: 0 <= n < |s.multyOrder| ==> s.multyOrder[n] in s.multyOrder;
  }

  /** The sort keys `multyOrder` stands for: each queued header's name and
      whether its order is ascending. */
  function Keys(s: SortingState): (keys: seq<SortKey>)
    requires QueueInRange(s)
    ensures |keys| == |s.multyOrder|
    ensures forall n :: 0 <= n < |keys| ==>
      keys[n] == SortKey(s.headers[s.multyOrder[n]].name, s.headers[s.multyOrder[n]].order == Ascending)
  {
    seq(|s.multyOrder|, n requires 0 <= n < |s.multyOrder| =>
      SortKey(s.headers[s.multyOrder[n]].name, s.headers[s.multyOrder[n]].order == Ascending))
  }

  /** `Paginator.Less` of sorting.go: the first queued header on which the
      items differ decides, ascending when its order is 2 and descending
      otherwise; items tied on every queued header are not less. */
  function Less<T>(s: SortingState, cmp: (T, T, string) -> bool, a: T, b: T): (r: bool)
    requires QueueInRange(s)
    ensures (forall n :: 0 <= n < |s.multyOrder| ==> Tied(cmp, a, b, s.headers[s.multyOrder[n]].name)) ==> !r
    ensures forall n ::
      (&& 0 <= n < |s.multyOrder|
       && !Tied(cmp, a, b, s.headers[s.multyOrder[n]].name)
       && (forall m :: 0 <= m < n ==> Tied(cmp, a, b, s.headers[s.multyOrder[m]].name)))
      ==> r == if cmp(a, b, s.headers[s.multyOrder[n]].name)
               then s.headers[s.multyOrder[n]].order == Ascending
               else s.headers[s.multyOrder[n]].order != Ascending
  {
    var keys := Keys(s);
    assert forall n ::
      (&& 0 <= n < |s.multyOrder|
       && !Tied(cmp, a, b, s.headers[s.multyOrder[n]].name)
       && (forall m :: 0 <= m < n ==> Tied(cmp, a, b, s.headers[s.multyOrder[m]].name)))
      ==> FirstUntied(keys, cmp, a, b, n);
    LessBy(keys, cmp, a, b)
  }
}

=== FILE: sortorder.dfy ===
/** The vocabulary shared by both sort configurations (common/paginator/list.go
    and common/paginator/sorting.go): the int8 `Order` field with its three
    meaningful values, and the multi-key `Less` rule both `sort.Interface`
    implementations use. */
module SortOrder {

  /** Go's `int8`, the type of the `Order` fields. */
  newtype int8 = x: int | -128 <= x < 128

  /** 0 - unsorted, 1 - descending, 2 - ascending. */
  const Unsorted: int8 := 0
  const Descending: int8 := 1
  const Ascending: int8 := 2

  predicate IsDirection(o: int8) {
    0 <= o <= 2
  }

  /** `o += 1` on an int8, wrapping from 127 to -128 as Go does. */
  function Inc(o: int8): (r: int8)
    ensures o < 127 ==> r as int == o as int + 1
    ensures o == 127 ==> r == -128
  {
    if o == 127 then -128 else o + 1
  }

  /** The next order in the cycle 0 -> 1 -> 2 -> 0; other values stay. */
  function NextOrder(o: int8): int8 {
    if o == Unsorted then Descending
    else if o == Descending then Ascending
    else if o == Ascending then Unsorted
    else o
  }

  /** One entry of the sort queue: the attribute to compare on and whether
      that attribute's `Order` is ascending (`Order == 2`). */
  datatype SortKey = SortKey(attribute: string, ascending: bool)

  /** Neither item is strictly less than the other on `attribute`. */
  ghost predicate Tied<T>(cmp: (T, T, string) -> bool, a: T, b: T, attribute: string) {
    !cmp(a, b, attribute) && !cmp(b, a, attribute)
  }

  /** `keys[n]` is the first key on which `a` and `b` are not tied. */
  ghost predicate FirstUntied<T>(keys: seq<SortKey>, cmp: (T, T, string) -> bool, a: T, b: T, n: int) {
    && 0 <= n < |keys|
    && !Tied(cmp, a, b, keys[n].attribute)
    && forall m :: 0 <= m < n ==> Tied(cmp, a, b, keys[m].attribute)
  }

  /** The loop of `Less`: walk the queue; the first key with `Compare(a, b)`
      answers `ascending`, the first with `Compare(b, a)` answers
      `!ascending`; when every key is tied the answer is false. */
  function LessBy<T>(keys: seq<SortKey>, cmp: (T, T, string) -> bool, a: T, b: T): (r: bool)
    ensures (forall m :: 0 <= m < |keys| ==> Tied(cmp, a, b, keys[m].attribute)) ==> !r
    ensures forall n :: FirstUntied(keys, cmp, a, b, n) ==>
      r == if cmp(a, b, keys[n].attribute) then keys[n].ascending else !keys[n].ascending
    decreases |keys|
  {
    if |keys| == 0 then false
    else if cmp(a, b, keys[0].attribute) then keys[0].ascending
    else if cmp(b, a, keys[0].attribute) then !keys[0].ascending
    else
      var r := LessBy(keys[1..], cmp, a, b);
      assert forall n :: FirstUntied(keys, cmp, a, b, n) ==> n > 0 && FirstUntied(keys[1..], cmp, a, b, n - 1);
      r
  }

  /** With an irreflexive comparison nothing is less than itself, whatever the queue. */
  lemma LessByIrreflexive<T>(keys: seq<SortKey>, cmp: (T, T, string) -> bool, a: T)
    requires forall m :: 0 <= m < |keys| ==> !cmp(a, a, keys[m].attribute)
    ensures !LessBy(keys, cmp, a, a)
  {
  }

  /** The caller's `Compare` on `attribute` is a strict weak order on `items`:
      irreflexive, transitive, and with ties transitive too. */
  ghost predicate StrictWeakOn<T>(cmp: (T, T, string) -> bool, attribute: string, items: seq<T>) {
    && (forall a :: a in items ==> !cmp(a, a, attribute))
    && (forall a, b, c :: a in items && b in items && c in items && cmp(a, b, attribute) && cmp(b, c, attribute) ==> cmp(a, c, attribute))
    && (forall a, b, c :: a in items && b in items && c in items && Tied(cmp, a, b, attribute) && Tied(cmp, b, c, attribute) ==> Tied(cmp, a, c, attribute))
  }

  ghost predicate AllStrictWeakOn<T>(keys: seq<SortKey>, cmp: (T, T, string) -> bool, items: seq<T>) {
    forall m :: 0 <= m < |keys| ==> StrictWeakOn(cmp, keys[m].attribute, items)
  }

  /** `a` comes strictly before `b` on a single key, in that key's direction. */
  ghost predicate Before<T>(key: SortKey, cmp: (T, T, string) -> bool, a: T, b: T) {
    if key.ascending then cmp(a, b, key.attribute) else cmp(b, a, key.attribute)
  }

  /** On one key of a strict weak order, "before" chains through ties and through itself. */
  lemma BeforeChains<T>(key: SortKey, cmp: (T, T, string) -> bool, items: seq<T>, a: T, b: T, c: T)
    requires StrictWeakOn(cmp, key.attribute, items)
    requires a in items && b in items && c in items
    ensures Before(key, cmp, a, b) && Before(key, cmp, b, c) ==> Before(key, cmp, a, c)
    ensures Tied(cmp, a, b, key.attribute) && Before(key, cmp, b, c) ==> Before(key, cmp, a, c)
    ensures Before(key, cmp, a, b) && Tied(cmp, b, c, key.attribute) ==> Before(key, cmp, a, c)
  {
  }

  /** One step of the queue walk: an untied first key decides, a tied one defers to the rest. */
  lemma LessByStep<T>(keys: seq<SortKey>, cmp: (T, T, string) -> bool, x: T, y: T)
    requires |keys| > 0
    requires Before(keys[0], cmp, x, y) ==> !Before(keys[0], cmp, y, x)
    ensures !Tied(cmp, x, y, keys[0].attribute) ==> LessBy(keys, cmp, x, y) == Before(keys[0], cmp, x, y)
    ensures Tied(cmp, x, y, keys[0].attribute) ==> LessBy(keys, cmp, x, y) == LessBy(keys[1..], cmp, x, y)
  {
  }

  /** The queue order is transitive when every queued key is a strict weak order. */
  lemma {:induction false} LessByTransitive<T>(keys: seq<SortKey>, cmp: (T, T, string) -> bool, items: seq<T>, a: T, b: T, c: T)
    requires AllStrictWeakOn(keys, cmp, items)
    requires a in items && b in items && c in items
    requires LessBy(keys, cmp, a, b) && LessBy(keys, cmp, b, c)
    ensures LessBy(keys, cmp, a, c)
    decreases |keys|
  {
    var key := keys[0];
    var k := key.attribute;
    assert StrictWeakOn(cmp, k, items);
    BeforeChains(key, cmp, items, a, b, c);
    BeforeChains(key, cmp, items, a, b, a);
    BeforeChains(key, cmp, items, b, c, b);
    BeforeChains(key, cmp, items, a, c, a);
    LessByStep(keys, cmp, a, b);
    LessByStep(keys, cmp, b, c);
    LessByStep(keys, cmp, a, c);
    if Tied(cmp, a, b, k) && Tied(cmp, b, c, k) {
      assert AllStrictWeakOn(keys[1..], cmp, items) by {
        forall m | 0 <= m < |keys[1..]|
          ensures StrictWeakOn(cmp, keys[1..][m].attribute, items)
        {
          assert keys[1..][m] == keys[m + 1];
        }
      }
      LessByTransitive(keys[1..], cmp, items, a, b, c);
    }
  }

  /** Hence `LessBy` is a strict order on the items, as `sort.Sort` needs. */
  lemma LessByStrictOrder<T>(keys: seq<SortKey>, cmp: (T, T, string) -> bool, items: seq<T>)
    requires AllStrictWeakOn(keys, cmp, items)
    ensures forall a :: a in items ==> !LessBy(keys, cmp, a, a)
    ensures forall a, b, c :: a in items && b in items && c in items && LessBy(keys, cmp, a, b) && LessBy(keys, cmp, b, c) ==> LessBy(keys, cmp, a, c)
  {
    forall a | a in items ensures !LessBy(keys, cmp, a, a) {
      LessByIrreflexive(keys, cmp, a);
    }
    forall a, b, c | a in items && b in items && c in items && LessBy(keys, cmp, a, b) && LessBy(keys, cmp, b, c)
      ensures LessBy(keys, cmp, a, c)
    {
      LessByTransitive(keys, cmp, items, a, b, c);
    }
  }

  /** Positions of the non-zero orders, in ascending position order: how both
      setups seed their queue. Written as the source's loop, appending. */
  function NonZeroPositions(orders: seq<int8>): (ps: seq<int>)
    ensures forall i, j :: 0 <= i < j < |ps| ==> ps[i] < ps[j]
    ensures forall n :: 0 <= n < |ps| ==> 0 <= ps[n] < |orders|
    ensures forall p :: p in ps <==> 0 <= p < |orders| && orders[p] != Unsorted
    ensures |ps| <= |orders|
    decreases |orders|
  {
    if |orders| == 0 then []
    else
      var init := orders[..|orders| - 1];
      var ps := NonZeroPositions(init);
      assert forall p :: 0 <= p < |init| ==> init[p] == orders[p];
      assert forall i :: 0 <= i < |ps| ==> ps[i] < |init| by {
        forall i | 0 <= i < |ps| ensures ps[i] < |init| { assert ps[i] in ps; }
      }
      if orders[|orders| - 1] != Unsorted then ps + [|orders| - 1] else ps
  }
}

=== FILE: usercontext.dfy ===
/** The per-user runtime store of common/user_context.go: a map from a
    Telegram user id to that user's record, created on first access. */
module UserContext {

  /** Go's `int64`, the type of user ids. */
  newtype int64 = x: int | -0x8000_0000_0000_0000 <= x < 0x8000_0000_0000_0000

  /** `RuntimeUserData`: the user's routing table. */
  datatype RuntimeUserData = RuntimeUserData(route: map<string, string>)

  type UserData = map<int64, RuntimeUserData>

  /** `Get`: the user's record, created with an empty route table when the
      user is new. The store gains at most that one entry. */
  function Get(u: UserData, id: int64): (r: (UserData, RuntimeUserData))
    ensures id in r.0 && r.0[id] == r.1
    ensures r.0.Keys == u.Keys + {id}
    ensures forall k :: k in u ==> r.0[k] == u[k]
    ensures id !in u ==> r.1.route == map[]
  {
    if id in u then (u, u[id]) else
      var record := RuntimeUserData(map[]);
      (u[id := record], record)
  }

  /** A second `Get` of the same user finds the record the first one
      returned and changes nothing. */
  lemma GetIdempotent(u: UserData, id: int64)
    ensures var (u1, r1) := Get(u, id);
      Get(u1, id) == (u1, r1)
  {
  }

  /** Looking up one user never disturbs another user's record. */
  lemma GetIsolated(u: UserData, id: int64, other: int64)
    requires other != id
    ensures var (u1, _) := Get(u, id);
      (other in u1 <==> other in u) && (other in u ==> Get(u1, other).1 == Get(u, other).1)
  {
  }
}
